=== FILE: README.md ===
# Transit stop-frequency analysis and viewer, modelled in Dafny

The system analyses GTFS transit data. The parts modelled here are these:

- **Gap statistics** (`scripts/helpers/time_utils.py`). The helpers parse `H:M:S` arrival times and keep those inside a window. They sort them and take the floor of the mean gap between consecutive arrivals.
- **Stop-frequency pipeline** (`scripts/stop_analysis.py`). It groups `stop_times.txt` rows by stop id, in the order each id is first seen. It computes each stop's mean gap over the window 16:00–18:00, then attaches names and coordinates from `stops.txt`. It keeps the complete stops with a positive gap and sorts them stably by gap. It then builds the JSON payload written to `docs/data/<city>/frequency_16_18.json`.
- **Legacy script** (the root `stop_analysis.py`). It is an earlier version of the pipeline that prints a listing instead of writing JSON.
- **Stop record** (`scripts/helpers/stop_utils.py`).
- **City manifest** (`scripts/scan_data.py`): the visible sub-directories of `docs/data/`, sorted.
- **Static frontend** (`docs/app.js`, `docs/scripts/utils.js`). This covers the following:
  - the hash router (`parseHash`, `updateHashFromState`);
  - the tier and colour classifier;
  - the HTML escaping and small string helpers;
  - the stop-frequency view, meaning the marker and bounds loop, the table, and the hover and click behaviour of table rows.
- **Map lifecycle** (`docs/scripts/map_manager.js`).

Modules follow the source files:

- `Wrappers` (`Option`, `Result`), `Strings` (split, replace, digits) and `Sorting` are helpers. `Sorting` is a stable insertion sort over a total preorder; stability is stated per tie class.
- The backend is `TimeUtils`, `StopUtils`, `Grouping`, `StopAnalysis`, `LegacyStopAnalysis` and `ScanData`.
- The frontend is `Classify`, `Html`, `UrlCoding`, `Router`, `FrequencyView` and `MapManager`.

Inputs are modelled as values:

- CSV files are sequences of rows.
- A directory listing is a sequence of `(name, isDir)` entries, or `None` when the directory is missing.
- A fetched JSON payload is a `Result`.
- Leaflet is a state record: the map is a token, a layer is the sequence of what was added to it, and the viewport is a value.

The model follows three behaviours of the code:

- `parseHash` does not reset segments that are missing from the hash. It keeps the previous state and only then validates it (`Router.MissingSegmentsKeepPrior`, `Router.EmptyHashKeepsPrior`, `Router.OneSegmentKeepsTool`).
- The table has a row for every stop, including stops that get no marker (`FrequencyView.TableRows`, `FrequencyView.TableOutnumbersMarkers`).
- The frontend fetches `data/<city>/frequencies/frequency_<window>.json`, but the writer emits `docs/data/<city>/frequency_16_18.json`. `FrequencyView.FrontendPathMissesWriterFile` shows the two never coincide.

## Model

| member | source | states |
|---|---|---|
| TimeUtils.FormatThenParse | scripts/helpers/time_utils.py:1-3 | parsing the `H:M:S` text of any time with non-negative fields gives that time back, and its seconds are `h*3600 + m*60 + s`, for hours of 24 and more too |
| TimeUtils.ParseAll | scripts/helpers/time_utils.py:1-2 | a list parses exactly when every entry parses (three `:`-separated integer fields), entry by entry; otherwise some entry is malformed |
| TimeUtils.FilterTimeWindow | scripts/helpers/time_utils.py:5-13 | keeps exactly the times whose seconds lie in the inclusive `[start, end]`, never more than the input |
| TimeUtils.FilterTimeWindowAppend | scripts/helpers/time_utils.py:5-13 | filtering distributes over concatenation, so the original order is kept |
| TimeUtils.FilterTimeWindowKeepsInside | scripts/helpers/time_utils.py:5-13 | a list already inside the window is returned unchanged |
| TimeUtils.SortTimestamps | scripts/helpers/time_utils.py:15-19 | the result is a permutation of the input, non-decreasing in the `(h, m, s)` tuple order |
| TimeUtils.TimeLeTotalPreorder | scripts/helpers/time_utils.py:18 | the tuple order is total and transitive, as `sorted` needs |
| TimeUtils.SumDiffsTelescopes | scripts/helpers/time_utils.py:27-32 | the consecutive differences sum to last minus first |
| TimeUtils.AverageTimeBetween | scripts/helpers/time_utils.py:21-32 | 0 for fewer than two times; otherwise the floor of (last − first) / (n − 1) |
| TimeUtils.TimeLeSeconds | scripts/helpers/time_utils.py:15-19 | for well-formed times, the tuple order implies the seconds order |
| TimeUtils.SortedWindowGapBounds | scripts/helpers/time_utils.py:34-41 | for at least two well-formed times inside the window, the sorted average lies between 0 and `end − start` |
| TimeUtils.AvgGapStartToEnd | scripts/helpers/time_utils.py:34-41 | 0 when fewer than two times fall in the window; for well-formed times the result lies between 0 and `end − start` |
| StopUtils.NewStop | scripts/helpers/stop_utils.py:3-8 | a new stop has its id, no name, latitude or longitude, and frequency 0 |
| StopUtils.ToDict | scripts/helpers/stop_utils.py:10-17 | the dict has exactly the keys `stop_id`, `name`, `lat`, `lon`, `avg_gap_sec`; `stop_id` is the id and `avg_gap_sec` the frequency |
| StopUtils.ToDictRoundTrip | scripts/helpers/stop_utils.py:10-17 | reading the dict back gives the same stop, so id, name, lat and lon pass through unchanged |
| Grouping.GroupArrivals | scripts/stop_analysis.py:35-42 | one group per distinct stop id, in first-seen order, each holding exactly that id's arrival times in file order |
| Grouping.AddRowExisting | scripts/stop_analysis.py:38-39 | a row of an id already seen extends that group and keeps the grouping invariant |
| Grouping.AddRowNew | scripts/stop_analysis.py:40-42 | a row of a new id appends a new group at the end and keeps the grouping invariant |
| Grouping.ArrivalInItsGroup | scripts/stop_analysis.py:38-41 | every row's arrival time is in its stop's group |
| Grouping.GroupedArrivalFromRow | scripts/stop_analysis.py:38-41 | every grouped arrival time comes from a row of that stop |
| StopAnalysis.StopsWithFrequencies | scripts/stop_analysis.py:44-47 | one stop per group in group order, each a fresh stop with frequency `avg_gap_start_to_end` over [57600, 64800]; fails exactly when some arrival time is malformed |
| StopAnalysis.AttachAll | scripts/stop_analysis.py:52-60 | each stop takes name, lat and lon from the last `stops.txt` row with its id, and is unchanged when there is none |
| StopAnalysis.UnknownStopRowIgnored | scripts/stop_analysis.py:57-60 | a `stops.txt` row whose id is no stop's id changes nothing, wherever it stands |
| StopAnalysis.AttachAllKeepsIdAndGap | scripts/stop_analysis.py:57-60 | attaching never changes a stop's id or gap |
| StopAnalysis.NewStopNotValid | scripts/stop_analysis.py:63-66 | a stop never named by `stops.txt` is not valid |
| StopAnalysis.FilterValid | scripts/stop_analysis.py:63-66 | keeps exactly the stops with name, lat and lon present and frequency > 0 |
| StopAnalysis.FilterValidAppend | scripts/stop_analysis.py:63-66 | filtering distributes over concatenation, so kept stops stay in input order |
| StopAnalysis.FilterValidKeepsValid | scripts/stop_analysis.py:63-66 | a list of valid stops passes unchanged |
| StopAnalysis.ValidStops | scripts/stop_analysis.py:63-68 | exactly the valid stops, as a multiset, sorted non-decreasingly by frequency |
| StopAnalysis.ValidStopsStable | scripts/stop_analysis.py:68 | stops of equal frequency keep their insertion order |
| StopAnalysis.OutputFileName | scripts/stop_analysis.py:85 | the file name built from `START//3600` and `END//3600` is `frequency_16_18.json` |
| StopAnalysis.ToDicts | scripts/stop_analysis.py:80 | one dict per stop, in order |
| StopAnalysis.BuildPayload | scripts/stop_analysis.py:75-81 | city, `start_sec` 57600, `end_sec` 64800, `sorted_by` `avg_gap_sec_asc`, and the stops in the same order, each reading back as its stop |
| StopAnalysis.AnalyzeFailsOnMalformedTime | scripts/stop_analysis.py:35-47 | the script fails if and only if some arrival time is not `H:M:S` |
| StopAnalysis.ValidStopsReported | scripts/stop_analysis.py:35-68 | every valid stop is complete, was seen in `stop_times.txt`, carries the average gap of its own arrivals and the name and coordinates of the last `stops.txt` row for its id |
| StopAnalysis.ReportedStopsValid | scripts/stop_analysis.py:35-68 | conversely, every stop meeting those conditions is one of the valid stops |
| StopAnalysis.AnalyzePayload | scripts/stop_analysis.py:75-85 | the payload is written to `docs/data/<city>/frequency_16_18.json` with the 57600–64800 window; every entry reads back as a reported stop, every reported stop has an entry, and the entries ascend by the `avg_gap_sec` they read back with |
| LegacyStopAnalysis.LegacyStops | stop_analysis.py:42-51 | one stop per group, created with name `'default'` and then given its gap; fails exactly on a malformed time |
| LegacyStopAnalysis.AttachNames | stop_analysis.py:55-61 | a stop takes the name of the last `stops.txt` row for its id, and keeps its name otherwise; ids and gaps are untouched |
| LegacyStopAnalysis.NamedStops | stop_analysis.py:46-61 | after the name loop each stop has the last name given for its id, or still `'default'` |
| LegacyStopAnalysis.OnePairPerStop | stop_analysis.py:48-52 | exactly one `(frequency, stop)` pair per distinct stop id, in first-seen order, keyed by the stop's gap |
| LegacyStopAnalysis.PairIdsFollowGroups | stop_analysis.py:48-52 | the pair ids are the group ids: distinct and exactly the ids of `stop_times.txt` |
| LegacyStopAnalysis.PairNames | stop_analysis.py:60-61 | a pair's stop shows the last name given for its id, or `'default'` |
| LegacyStopAnalysis.SortPairs | stop_analysis.py:64 | a permutation of the pairs, non-decreasing by frequency |
| LegacyStopAnalysis.SortPairsStable | stop_analysis.py:64 | pairs of equal frequency keep their insertion order |
| LegacyStopAnalysis.TruncDiv60 | stop_analysis.py:72 | `int(x/60)` truncates toward zero: bounds for positive and negative `x` |
| LegacyStopAnalysis.MinuteEstimate | stop_analysis.py:72 | for a non-negative gap `f`, the estimate `m` satisfies `60(m−1) <= f < 60m` |
| LegacyStopAnalysis.Listing | stop_analysis.py:65-72 | the listing holds exactly the pairs with non-zero frequency, each with its minute estimate |
| LegacyStopAnalysis.ListingAppend | stop_analysis.py:65-72 | listing distributes over concatenation, so lines come out in the order of their pairs, ties included |
| LegacyStopAnalysis.ListingOrdered | stop_analysis.py:64-72 | the listing of sorted pairs is ordered by frequency |
| LegacyStopAnalysis.RunListing | stop_analysis.py:33-72 | every printed line has a non-zero gap and its minute estimate, and lines ascend by gap |
| ScanData.CityNames | scripts/scan_data.py:15-19 | a name is kept if and only if it is a directory not starting with `.` |
| ScanData.ScanCities | scripts/scan_data.py:9-22 | no manifest when the data directory is missing; otherwise exactly the visible directories, as a multiset, sorted ascending |
| ScanData.StrLeTotalPreorder | scripts/scan_data.py:22 | Python's string order is total and transitive |
| ScanData.StrLeAntisymmetric | scripts/scan_data.py:22 | two strings ordered both ways are equal |
| ScanData.ManifestVisibleDirsOnly | scripts/scan_data.py:17-18 | every manifest entry is a listed directory and does not start with `.` |
| ScanData.ManifestStrictlyAscending | scripts/scan_data.py:15-22 | with the distinct names of a directory listing, the manifest is strictly ascending |
| Classify.TierFromGapSec | docs/scripts/utils.js:20-25 | high if and only if the gap is at most 900 s, medium if and only if it is in (900, 1800], low if and only if it exceeds 1800 s |
| Classify.TierFromGapSecMonotone | docs/scripts/utils.js:20-25 | a longer gap never yields a better tier |
| Classify.ColorFromTier | docs/app.js:156-160 | green exactly for `"high"`, yellow exactly for `"medium"`, red for every other string |
| Classify.GapColor | docs/app.js:149-160 | the colour of a gap: green up to 900 s, yellow up to 1800 s, red beyond |
| Classify.UtilsColorFromTier | docs/scripts/utils.js:27-34 | an inherited `Object.prototype` name yields that member; every other tier yields the same colour as the `docs/app.js` version |
| Classify.UtilsColorFromTierInheritedName | docs/scripts/utils.js:33 | for `"toString"` the lookup returns the inherited member, where the other version returns red |
| Classify.ColorFromTierVersionsAgree | docs/scripts/utils.js:27-34 | on every tier name `tierFromGapSec` produces, the two versions give the same colour |
| Html.EscapeHtml | docs/scripts/utils.js:11-18 | the output contains no `<`, `>`, `"` or `'`, and decoding its entities gives the input back |
| Html.EscapeChainedIsPerChar | docs/scripts/utils.js:11-18 | since `&` is replaced first, the chained replacements equal escaping each character once |
| Html.Capitalize | docs/scripts/utils.js:7-9 | same length, first character upper-cased, the rest unchanged, `""` to `""` |
| Html.CapitalizeIdempotent | docs/scripts/utils.js:7-9 | capitalising twice is capitalising once |
| Html.FormatTimeWindowAtFirstUnderscore | docs/scripts/utils.js:36-38 | only the first `_` becomes `:00-`; the rest is kept and `:00` appended |
| Html.FormatTimeWindowNoUnderscore | docs/scripts/utils.js:36-38 | a window without `_` only gains `:00` |
| Html.FormatTimeWindowDefault | docs/scripts/utils.js:36-38 | `"16_18"` is shown as `"16:00-18:00"` |
| UrlCoding.FormDecodeEncode | docs/app.js:65-79 | decoding a query value undoes `encodeURIComponent` |
| UrlCoding.EncodeHasNoDelimiter | docs/app.js:79 | an encoded value contains no `?`, `&`, `=`, `#` or `/` |
| UrlCoding.NameValueAtFirst | docs/app.js:65 | a query pair splits at its first `=` |
| UrlCoding.Get | docs/app.js:66 | `get` finds the value of the first pair with the name, and nothing if and only if no pair has it |
| UrlCoding.QueryGetSingle | docs/app.js:65-66 | the query `window=<encoded w>` yields `w` |
| Router.InitialKeptByEmptyHash | docs/app.js:12-17 | the initial state (`kaunas`, `frequency`, `16_18`) is registered, and an empty hash leaves it unchanged |
| Router.Validate | docs/app.js:68-71 | the result is registered; registered fields are kept, an unknown city becomes `kaunas`, an unknown tool `heatmap` and an unknown window `16_18`; a registered state is unchanged |
| Router.ParseHash | docs/app.js:45-72 | the page is About exactly when the first segment is `about`, and then only the page changes; in app mode the city, tool and window are always registered, for any hash; a city segment, tool segment or window parameter that is present is taken when registered and otherwise falls back to `kaunas`, `heatmap` or `16_18` |
| Router.MissingSegmentsKeepPrior | docs/app.js:62-66 | a missing city or tool segment, or a missing window parameter, keeps the prior value before validation |
| Router.EmptyHashKeepsPrior | docs/app.js:51-71 | the empty hash validates the prior state and changes nothing else |
| Router.OneSegmentKeepsTool | docs/app.js:62-63 | a one-segment hash sets the city and keeps the prior tool and window |
| Router.ParseHashIdempotent | docs/app.js:45-72 | parsing the same hash twice gives the same state as parsing it once |
| Router.HashHasQueryIffFrequency | docs/app.js:79-80 | the written hash carries a query exactly when the tool is `frequency` |
| Router.SegmentsOfHash | docs/app.js:52-80 | the written hash has the city and the tool as its path segments |
| Router.WindowParamOfHash | docs/app.js:65-79 | the written hash yields the window for the frequency tool and no window for the heatmap |
| Router.ParseHashOfHash | docs/app.js:45-81 | reading a written app hash restores city and tool from the hash; the window comes from the hash for `frequency` and from the prior state for `heatmap` |
| Router.RoundTrip | docs/app.js:45-81 | every about state and every registered app state is restored from the hash `updateHashFromState` writes |
| FrequencyView.MarkerOf | docs/app.js:276-290 | a marker sits at the stop's coordinates with radius 5, weight 1 and fill opacity 0.8; its stroke and fill are green exactly for gaps up to 900 s, yellow exactly for gaps in (900, 1800] s and red exactly above 1800 s; its popup name decodes to the stop's name |
| FrequencyView.BuildMarkers | docs/app.js:267-295 | a marker at index i if and only if stop i's lat, lon and gap are finite; `bounds` holds one position per such stop, in order, and equals the positions of the markers |
| FrequencyView.PlottedPointsShorter | docs/app.js:270-295 | there are fewer bounds than stops exactly when some stop has a non-finite field |
| FrequencyView.TableRows | docs/app.js:324-336 | one row per stop, invalid ones included, numbered from 1, each name escaped so that it decodes to the stop's name, the gap in minutes (`avg_gap_sec / 60`) and the coordinates as read |
| FrequencyView.TableOutnumbersMarkers | docs/app.js:267-336 | when some stop is not plottable, the table has more rows than the map has positions |
| FrequencyView.MouseEnter | docs/app.js:362-371 | a row without a marker does nothing; otherwise its marker is the one and only popped marker |
| FrequencyView.MouseLeave | docs/app.js:373-375 | leaving reverts only when this row's marker is the highlighted one, and then nothing is popped |
| FrequencyView.ReplayKeepsSingleHighlight | docs/app.js:349-375 | under any sequence of enter and leave events at most one marker is popped, and it is the highlighted one |
| FrequencyView.EnterThenEnter | docs/app.js:362-371 | entering row i and then row j (with a marker) leaves only j popped |
| FrequencyView.EnterThenLeave | docs/app.js:362-375 | entering and leaving the same row restores the plain state |
| FrequencyView.Click | docs/app.js:377-381 | a click centres on the row's marker, zooms to at least 15 and never out, and opens its popup; a row without a marker does nothing |
| FrequencyView.FrontendPathMissesWriterFile | docs/app.js:204 | the fetched path never equals the path the writer uses, for any city |
| FrequencyView.RenderFrequency | docs/app.js:203-383 | a failed fetch shows the status message naming the path; a `null` body clears the status and stops there, because reading its `stops` throws; a `null` entry stops the marker loop at the first such entry, with markers for the plottable entries before it; otherwise there is one marker slot per stop, filled with the stop's marker exactly when the stop is plottable; the table rows and the note count every stop; bounds are the plottable positions; and when bounds are non-empty the view is fitted with padding 30 to their smallest box, which holds them all |
| MapManager.BoxOf | docs/scripts/map_manager.js:88-93 | the fitted box holds every point, and each of its edges is attained by some point |
| MapManager.EnsureMap | docs/scripts/map_manager.js:8-32 | with a map it returns that map and changes nothing; without an element it returns null and changes nothing; otherwise it creates a fresh map with an empty marker layer and no view set |
| MapManager.EnsureMapIdempotent | docs/scripts/map_manager.js:9 | a second `ensureMap` returns the same map and changes nothing |
| MapManager.GetMap | docs/scripts/map_manager.js:34-36 | returns what `ensureMap` returns when it cannot create a map, and a live map always has its marker layer |
| MapManager.ClearMarkers | docs/scripts/map_manager.js:39-42 | the existing layers are emptied; the map and the view stay |
| MapManager.ClearMarkersIdempotent | docs/scripts/map_manager.js:39-42 | clearing twice is clearing once |
| MapManager.RemoveMap | docs/scripts/map_manager.js:44-51 | with a map, back to no map and no layers; without one, nothing changes |
| MapManager.RemoveMapIdempotent | docs/scripts/map_manager.js:44-51 | removing twice is removing once |
| MapManager.RemoveThenEnsureIsFresh | docs/scripts/map_manager.js:14-47 | the map created after a removal is a new map with an empty marker layer |
| MapManager.AddMarker | docs/scripts/map_manager.js:53-64 | without a marker layer, null and no change; otherwise exactly one marker is appended, with a popup only for non-empty content |
| MapManager.AddGeoJsonLayer | docs/scripts/map_manager.js:66-86 | a no-op without a map; otherwise the GeoJSON layer holds exactly the new data, and non-empty data fits the view around all its points |
| MapManager.AddGeoJsonLayerReplaces | docs/scripts/map_manager.js:70-80 | a second call replaces the first layer rather than accumulating |
| MapManager.FitBounds | docs/scripts/map_manager.js:88-93 | a no-op without a map or with no points; otherwise only the view changes, to a box holding every point |
| MapManager.LifecycleInvariant | docs/scripts/map_manager.js:3-93 | every operation keeps the invariant that no layer outlives its map and a live map has its marker layer |

## Left out

- StopAnalysis.OutputPath: the path is modelled relative to the repository root `BASE_DIR`, with `/` joins. `os.path.join` drops everything before an absolute component. A city argument that is an absolute path, such as `/tmp/x`, would therefore write to `/tmp/x/frequency_16_18.json`. That case is not modelled.
- File and CSV reading, JSON writing, `argparse`, `time.time()` timing and every `print` are left out. This includes the `Wrote JSON` and `Found N cities` messages and the minute estimate printed by `scripts/stop_analysis.py:71-72`. Rows, listings and payloads are values.
- `api/main.py` and `scripts/transport_analyzer.py` are not part of this model. The first is web and process plumbing; the second is floating-point numerics over foreign libraries.
- `float()` on `stop_lat`/`stop_lon` is not modelled. Rows carry the coordinates already as reals, and a malformed coordinate (a `ValueError`) is not modelled.
- TimeUtils.ParseInt accepts an optional sign and ASCII digits only. Python's `int` also allows surrounding whitespace, `_` separators and non-ASCII digits.
- TimeUtils.AverageTimeBetween returns the integer 0 for fewer than two times. The source returns the float `0.0`, which compares equal; `avg_gap_start_to_end` never reaches that branch.
- `TimeUtils.FloorDiv` is Python's `//`. With the positive divisor the source uses, it is Dafny's `/`.
- Frontend number handling is not modelled:
  - `Number(...)` coercion: each stop field arrives as `Some(real)` when finite and `None` otherwise.
  - `toFixed` formatting.
  - Floating-point rounding in `gapSec / 60` is not modelled; the tier thresholds are exact reals.
- Html.Capitalize upper-cases ASCII letters only. `toUpperCase` on other characters, including ones that expand such as `ß`, is not modelled.
- UrlCoding: percent-escapes of bytes at or above 0x80 are kept literally when decoding, and characters outside ASCII are not UTF-8 encoded when encoding. No such value can be a registered window, so `parseHash` ends in the same state.
- `URLSearchParams` stripping a leading `?` is not modelled, because the query string passed to it never contains one.
- DOM and Leaflet side effects are not modelled:
  - tile layers, `ResizeObserver`, `requestAnimationFrame` and `invalidateSize`;
  - the resize debounce (`docs/app.js:34-42`, `164-176`, `docs/scripts/map_manager.js:95-99`);
  - the container detach and reattach (`docs/app.js:222-253`);
  - the `ensureMap`/`clearMapMarkers` pair of `docs/app.js:183-201`, whose map is taken as present when markers are added;
  - the marker style calls of the hover handlers, reduced to the set of popped rows.
- The heatmap view (`docs/app.js:126-146`) is not modelled. It depends only on the image's `onload`/`onerror` events.
- `render`, `fillSelectors`, `syncSelectorsToState`, `bindEvents` and `init` are not modelled. They only wire DOM events to the modelled functions.
- Async `fetch` and the stale-response race under rapid navigation are concurrency. The fetch outcome is a parameter of `FrequencyView.RenderFrequency`.
- FrequencyView.RenderFrequency: for a `null` entry, the DOM work done before the marker loop throws (container detach, view wipe, the new empty layout, the cleared markers) is not part of the outcome. The outcome records where the loop stopped and the bounds gathered so far. The uncaught rejection itself is not modelled.
- MapManager.AddGeoJsonLayer reduces a GeoJSON feature to its coordinates, and every feature has at least one. Features without geometry are not modelled; for them Leaflet's `fitBounds` would raise on empty bounds. The style callback is an opaque token.
- MapManager.AddMarker binds a popup for non-empty string content. Non-string popup content (DOM nodes) is not modelled.

## Findings

| source | as written | input that shows it | evidently intended | confidence | as-written member | corrected member |
|---|---|---|---|---|---|---|
| docs/scripts/utils.js:27-34 | `colors[tier] \|\| colors.low` looks the tier up on a plain object literal, so names inherited from `Object.prototype` are found and returned | `colorFromTier("toString")` returns the `toString` function, not a colour | every string other than `high` and `medium` maps to the low colour `#e74c3c`, as the fallback and the `docs/app.js` version do | high (not executed) | Classify.UtilsColorFromTier, Classify.UtilsColorFromTierInheritedName | Classify.ColorFromTier, Classify.GapColor |

=== FILE: classify.dfy ===
/** The service-quality classifier of the frontend: `tierFromGapSec` and
    `colorFromTier`, defined both in `docs/app.js` and in `docs/scripts/utils.js`. */
module Classify {

  /** The tiers, best first. */
  datatype Tier = High | Medium | Low

  /** The string `tierFromGapSec` returns. */
  function TierName(t: Tier): string {
    match t
    case High => "high"
    case Medium => "medium"
    case Low => "low"
  }

  const HIGH_COLOR: string := "#2ecc71"
  const MEDIUM_COLOR: string := "#f1c40f"
  const LOW_COLOR: string := "#e74c3c"

  /** `tierFromGapSec`: the gap is turned into minutes and compared with 15 and 30,
      so the boundaries in seconds are 900 and 1800, both inclusive. */
  function TierFromGapSec(gapSec: real): (t: Tier)
    ensures t == High <==> gapSec <= 900.0
    ensures t == Medium <==> 900.0 < gapSec <= 1800.0
    ensures t == Low <==> 1800.0 < gapSec
  {
    var min := gapSec / 60.0;
    if min <= 15.0 then High
    else if min <= 30.0 then Medium
    else Low
  }

  /** How good a tier is: `High` ranks highest. */
  function Rank(t: Tier): nat {
    match t
    case High => 2
    case Medium => 1
    case Low => 0
  }

  /** A longer gap never gives a better tier. */
  lemma TierFromGapSecMonotone(a: real, b: real)
    requires a <= b
    ensures Rank(TierFromGapSec(b)) <= Rank(TierFromGapSec(a))
  {
  }

  /** `colorFromTier` of `docs/app.js`: green for `"high"`, yellow for
      `"medium"`, and red for every other string. */
  function ColorFromTier(tier: string): (c: string)
    ensures c in {HIGH_COLOR, MEDIUM_COLOR, LOW_COLOR}
    ensures c == HIGH_COLOR <==> tier == "high"
    ensures c == MEDIUM_COLOR <==> tier == "medium"
  {
    if tier == "high" then HIGH_COLOR
    else if tier == "medium" then MEDIUM_COLOR
    else LOW_COLOR
  }

  /** The marker colour of a gap, through its tier name. */
  lemma GapColor(gapSec: real)
    ensures ColorFromTier(TierName(TierFromGapSec(gapSec)))
         == if gapSec <= 900.0 then HIGH_COLOR
            else if gapSec <= 1800.0 then MEDIUM_COLOR
            else LOW_COLOR
  {
  }

  /** The names every plain JavaScript object inherits from `Object.prototype`. */
  const OBJECT_PROTOTYPE_MEMBERS: set<string> := {
    "constructor", "hasOwnProperty", "isPrototypeOf", "propertyIsEnumerable",
    "toLocaleString", "toString", "valueOf", "__proto__",
    "__defineGetter__", "__defineSetter__", "__lookupGetter__", "__lookupSetter__"}

  /** What `colors[tier]` can yield: one of the three colour strings, or an
      inherited member (a function or `Object.prototype`, both truthy). */
  datatype Lookup = Colour(value: string) | InheritedMember(name: string)

  /** `colorFromTier` of `docs/scripts/utils.js`: `colors[tier] || colors.low` on an
      object literal. An own key gives its colour, a missing key gives
      `undefined` and so the low colour, and an inherited member is truthy and is
      returned as it is. */
  function UtilsColorFromTier(tier: string): (r: Lookup)
    ensures tier in OBJECT_PROTOTYPE_MEMBERS ==> r == InheritedMember(tier)
    ensures tier !in OBJECT_PROTOTYPE_MEMBERS ==> r == Colour(ColorFromTier(tier))
  {
    if tier == "high" then Colour(HIGH_COLOR)
    else if tier == "medium" then Colour(MEDIUM_COLOR)
    else if tier == "low" then Colour(LOW_COLOR)
    else if tier in OBJECT_PROTOTYPE_MEMBERS then InheritedMember(tier)
    else Colour(LOW_COLOR)
  }

  /** The utility version returns something other than a colour for `"toString"`,
      where the `|| colors.low` fallback evidently meant red. */
  lemma UtilsColorFromTierInheritedName()
    ensures UtilsColorFromTier("toString") == InheritedMember("toString")
    ensures ColorFromTier("toString") == LOW_COLOR
  {
  }

  /** On the names `tierFromGapSec` produces the two versions agree. */
  lemma ColorFromTierVersionsAgree(gapSec: real)
    ensures UtilsColorFromTier(TierName(TierFromGapSec(gapSec)))
         == Colour(ColorFromTier(TierName(TierFromGapSec(gapSec))))
  {
  }
}

=== FILE: frequency_view.dfy ===
/** The stop-frequency view of `docs/app.js` (`renderFrequency`): which stops get
    a marker, the bounds the map is fitted to, the table, and the hover and click
    behaviour of the table rows. */
module FrequencyView {
  import opened Wrappers
  import opened Strings
  import opened Classify
  import opened Html
  import MapManager
  import Router
  import StopAnalysis

  /** One entry of `payload.stops` after `Number(...)`: a numeric field is `None`
      when it is not a finite number. */
  datatype StopRecord = StopRecord(name: Option<string>, lat: Option<real>, lon: Option<real>,
                                   gapSec: Option<real>)

  /** The loop's `continue` condition, negated. */
  predicate Plottable(s: StopRecord) {
    s.lat.Some? && s.lon.Some? && s.gapSec.Some?
  }

  /** `s.name || ""`. */
  function DisplayName(s: StopRecord): string {
    match s.name
    case Some(n) => n
    case None => ""
  }

  /** A stop's circle marker: its position, its style and what its popup shows. */
  datatype StopMarker = StopMarker(at: MapManager.LatLng, options: MapManager.MarkerOptions,
                                   popupName: string, gapMinutes: real)

  function MarkerOf(s: StopRecord): (m: StopMarker)
    requires Plottable(s)
    ensures m.at == MapManager.LatLng(s.lat.value, s.lon.value)
    ensures m.options.color == m.options.fillColor
    ensures m.options.color == HIGH_COLOR <==> s.gapSec.value <= 900.0
    ensures m.options.color == MEDIUM_COLOR <==> 900.0 < s.gapSec.value <= 1800.0
    ensures m.options.color == LOW_COLOR <==> s.gapSec.value > 1800.0
    ensures m.options.radius == 5.0 && m.options.weight == 1.0 && m.options.fillOpacity == 0.8
    ensures Unescape(m.popupName) == DisplayName(s)
  {
    var gap := s.gapSec.value;
    var col := ColorFromTier(TierName(TierFromGapSec(gap)));
    GapColor(gap);
    StopMarker(MapManager.LatLng(s.lat.value, s.lon.value),
               MapManager.MarkerOptions(5.0, col, col, 0.8, 1.0),
               EscapeHtml(DisplayName(s)), gap / 60.0)
  }

  /** Reference definition of `bounds`: the positions of the plottable stops, in order. */
  function PlottedPoints(stops: seq<StopRecord>): seq<MapManager.LatLng>
    decreases |stops|
  {
    if stops == [] then []
    else
      var last := stops[|stops| - 1];
      PlottedPoints(stops[..|stops| - 1])
        + (if Plottable(last) then [MapManager.LatLng(last.lat.value, last.lon.value)] else [])
  }

  /** The positions of the markers present in `markersByIndex`, in index order. */
  function Positions(markers: seq<Option<StopMarker>>): seq<MapManager.LatLng>
    decreases |markers|
  {
    if markers == [] then []
    else
      var last := markers[|markers| - 1];
      Positions(markers[..|markers| - 1]) + (if last.Some? then [last.value.at] else [])
  }

  /** The entry of `markersByIndex` for one stop. */
  function SlotOf(s: StopRecord): Option<StopMarker> {
    if Plottable(s) then Some(MarkerOf(s)) else None
  }

  /** The marker loop: stop `i` has a marker exactly when its latitude, longitude
      and gap are finite; `bounds` holds one position per marker, in index order. */
  method BuildMarkers(stops: seq<StopRecord>)
    returns (markersByIndex: seq<Option<StopMarker>>, bounds: seq<MapManager.LatLng>)
    ensures |markersByIndex| == |stops|
    ensures forall i :: 0 <= i < |stops| ==> (markersByIndex[i].Some? <==> Plottable(stops[i]))
    ensures forall i :: 0 <= i < |stops| && Plottable(stops[i]) ==>
              markersByIndex[i] == Some(MarkerOf(stops[i]))
    ensures bounds == PlottedPoints(stops)
    ensures bounds == Positions(markersByIndex)
  {
    // `new Array(n).fill(null)` filled in index order: slot `i` is settled
    // in step `i`, so the slots are built by appending.
    markersByIndex := [];
    bounds := [];
    var i := 0;
    while i < |stops|
      invariant 0 <= i <= |stops|
      invariant |markersByIndex| == i
      invariant forall k :: 0 <= k < i ==> markersByIndex[k] == SlotOf(stops[k])
      invariant bounds == PlottedPoints(stops[..i])
      invariant bounds == Positions(markersByIndex)
    {
      PlottedPointsStep(stops, i);
      var slot := SlotOf(stops[i]);
      PositionsAppend(markersByIndex, slot);
      markersByIndex := markersByIndex + [slot];
      if slot.Some? {
        bounds := bounds + [slot.value.at];
      }
      i := i + 1;
    }
    assert stops[..|stops|] == stops;
  }

  /** One more stop adds its position to the plotted points when it is plottable. */
  lemma PlottedPointsStep(stops: seq<StopRecord>, i: nat)
    requires i < |stops|
    ensures PlottedPoints(stops[..i + 1]) == PlottedPoints(stops[..i])
              + (if Plottable(stops[i]) then [MapManager.LatLng(stops[i].lat.value, stops[i].lon.value)] else [])
  {
    assert stops[..i + 1][..i] == stops[..i];
  }

  /** One more slot adds its marker's position when it holds a marker. */
  lemma PositionsAppend(markers: seq<Option<StopMarker>>, slot: Option<StopMarker>)
    ensures Positions(markers + [slot]) == Positions(markers) + (if slot.Some? then [slot.value.at] else [])
  {
    assert (markers + [slot])[..|markers|] == markers;
  }

  /** Fewer positions than stops exactly when some stop is not plottable. */
  lemma {:induction false} PlottedPointsShorter(stops: seq<StopRecord>)
    ensures |PlottedPoints(stops)| <= |stops|
    ensures |PlottedPoints(stops)| < |stops| <==> exists i :: 0 <= i < |stops| && !Plottable(stops[i])
    decreases |stops|
  {
    if stops != [] {
      var init := stops[..|stops| - 1];
      PlottedPointsShorter(init);
      assert forall i :: 0 <= i < |init| ==> init[i] == stops[i];
    }
  }

  /** One row of the table: its number, the escaped name, and the gap and
      coordinates as `Number(...)` gives them. */
  datatype TableRow = TableRow(number: nat, nameHtml: string, gapMinutes: Option<real>,
                               lat: Option<real>, lon: Option<real>)

  function RowOf(i: nat, s: StopRecord): TableRow {
    TableRow(i + 1, EscapeHtml(DisplayName(s)),
             match s.gapSec case Some(g) => Some(g / 60.0) case None => None,
             s.lat, s.lon)
  }

  /** The table: one row for every stop, plottable or not, numbered from 1, each
      name escaped so that it decodes back to the stop's name. */
  function TableRows(stops: seq<StopRecord>): (rows: seq<TableRow>)
    ensures |rows| == |stops|
    ensures forall i :: 0 <= i < |stops| ==>
              && rows[i].number == i + 1
              && Unescape(rows[i].nameHtml) == DisplayName(stops[i])
              && rows[i].gapMinutes == (match stops[i].gapSec case Some(g) => Some(g / 60.0) case None => None)
              && rows[i].lat == stops[i].lat && rows[i].lon == stops[i].lon
  {
    seq(|stops|, i requires 0 <= i < |stops| => RowOf(i, stops[i]))
  }

  /** The note above the table counts every stop, not only the plotted ones. */
  function NoteText(stops: seq<StopRecord>): string {
    "Showing all " + NatToString(|stops|) + " stops (scroll to view)."
  }

  /** Whenever a stop cannot be plotted, the table has more rows than the map
      has markers. */
  lemma TableOutnumbersMarkers(stops: seq<StopRecord>, i: nat)
    requires i < |stops| && !Plottable(stops[i])
    ensures |TableRows(stops)| > |PlottedPoints(stops)|
  {
    PlottedPointsShorter(stops);
  }

  // ----- hover and click -----

  /** `highlighted` (as a row index) and the set of rows whose marker has the pop style. */
  datatype Hover = Hover(highlighted: Option<nat>, popped: set<nat>)

  const NO_HOVER: Hover := Hover(None, {})

  /** The pop style is on the highlighted marker and nowhere else, and only a
      row with a marker is ever highlighted. */
  predicate SingleHighlight(h: Hover, markers: seq<Option<StopMarker>>) {
    && h.popped == (if h.highlighted.Some? then {h.highlighted.value} else {})
    && (h.highlighted.Some? ==> h.highlighted.value < |markers| && markers[h.highlighted.value].Some?)
  }

  /** `unhighlight`. */
  function Unhighlight(h: Hover): Hover {
    if h.highlighted.None? then h
    else Hover(None, h.popped - {h.highlighted.value})
  }

  /** The `mouseenter` handler of row `j`. */
  function MouseEnter(h: Hover, markers: seq<Option<StopMarker>>, j: nat): (r: Hover)
    requires j < |markers|
    ensures markers[j].None? ==> r == h
    ensures markers[j].Some? && SingleHighlight(h, markers) ==> r == Hover(Some(j), {j})
    ensures SingleHighlight(h, markers) ==> SingleHighlight(r, markers)
  {
    if markers[j].None? then h
    else
      var h1 := if h.highlighted.Some? && h.highlighted.value != j then Unhighlight(h) else h;
      Hover(Some(j), h1.popped + {j})
  }

  /** The `mouseleave` handler of row `j`. */
  function MouseLeave(h: Hover, markers: seq<Option<StopMarker>>, j: nat): (r: Hover)
    requires j < |markers|
    ensures h.highlighted != Some(j) ==> r == h
    ensures SingleHighlight(h, markers) && h.highlighted == Some(j) ==> r == NO_HOVER
    ensures SingleHighlight(h, markers) ==> SingleHighlight(r, markers)
  {
    if markers[j].Some? && h.highlighted == Some(j) then Unhighlight(h) else h
  }

  /** What the mouse does over the table. */
  datatype RowEvent = Enter(row: nat) | Leave(row: nat)

  function Replay(h: Hover, markers: seq<Option<StopMarker>>, events: seq<RowEvent>): Hover
    requires forall k :: 0 <= k < |events| ==> events[k].row < |markers|
    decreases |events|
  {
    if events == [] then h
    else
      var e := events[0];
      var h1 := match e
        case Enter(j) => MouseEnter(h, markers, j)
        case Leave(j) => MouseLeave(h, markers, j);
      Replay(h1, markers, events[1..])
  }

  /** Under any sequence of row events at most one marker is popped, and it is
      the highlighted one. */
  lemma {:induction false} ReplayKeepsSingleHighlight(h: Hover, markers: seq<Option<StopMarker>>,
                                                      events: seq<RowEvent>)
    requires forall k :: 0 <= k < |events| ==> events[k].row < |markers|
    requires SingleHighlight(h, markers)
    ensures SingleHighlight(Replay(h, markers, events), markers)
    ensures |Replay(h, markers, events).popped| <= 1
    decreases |events|
  {
    if events != [] {
      var h1 := match events[0]
        case Enter(j) => MouseEnter(h, markers, j)
        case Leave(j) => MouseLeave(h, markers, j);
      assert forall k :: 0 <= k < |events[1..]| ==> events[1..][k] == events[k + 1];
      ReplayKeepsSingleHighlight(h1, markers, events[1..]);
    } else {
      assert h.highlighted.Some? ==> h.popped == {h.highlighted.value};
    }
  }

  /** Entering row `i` and then row `j` leaves only `j` popped. */
  lemma EnterThenEnter(markers: seq<Option<StopMarker>>, i: nat, j: nat)
    requires i < |markers| && j < |markers| && markers[j].Some?
    ensures MouseEnter(MouseEnter(NO_HOVER, markers, i), markers, j) == Hover(Some(j), {j})
  {
  }

  /** Entering and leaving the same row restores the plain state. */
  lemma EnterThenLeave(markers: seq<Option<StopMarker>>, j: nat)
    requires j < |markers|
    ensures MouseLeave(MouseEnter(NO_HOVER, markers, j), markers, j) == NO_HOVER
  {
  }

  /** The part of the map view a click changes. */
  datatype MapView = MapView(center: Option<MapManager.LatLng>, zoom: int, openPopup: Option<nat>)

  /** The `click` handler of row `j`: centre on the marker, zoom in to at least 15,
      open its popup; a row without a marker does nothing. */
  function Click(v: MapView, markers: seq<Option<StopMarker>>, j: nat): (r: MapView)
    requires j < |markers|
    ensures markers[j].None? ==> r == v
    ensures markers[j].Some? ==>
              && r.center == Some(markers[j].value.at)
              && r.zoom >= 15 && r.zoom >= v.zoom && (r.zoom == 15 || r.zoom == v.zoom)
              && r.openPopup == Some(j)
  {
    if markers[j].None? then v
    else MapView(Some(markers[j].value.at), if v.zoom > 15 then v.zoom else 15, Some(j))
  }

  // ----- the whole view -----

  /** The file `renderFrequency` fetches. */
  function DataPath(s: Router.State): string {
    "data/" + s.city + "/frequencies/frequency_" + s.window + ".json"
  }

  /** The writer puts the file one directory higher than the frontend looks for
      it, for every city. */
  lemma FrontendPathMissesWriterFile(city: string)
    ensures "docs/" + DataPath(Router.State(Router.App, city, "frequency", "16_18"))
         != StopAnalysis.OutputPath(city)
  {
    var front := "docs/" + DataPath(Router.State(Router.App, city, "frequency", "16_18"));
    assert |front| == 10 + |city| + 23 + 5 + 5;
    assert |StopAnalysis.OutputPath(city)| == 10 + |city| + 1 + 20;
  }

  /** One entry of the fetched `stops` array: JSON `null`, or an object read as a stop. */
  datatype StopEntry = NullStop | Present(record: StopRecord)

  /** The fetched JSON body: `null`, or an object whose `stops || []` is the stop list. */
  datatype Payload = NullPayload | Payload(stops: Option<seq<StopEntry>>)

  datatype Rendered =
    | LoadFailed(status: string)
      /** `payload.stops` on a `null` body throws after the status was cleared.
          `render` emptied the view before the fetch, so the view and the status
          are both left empty. */
    | StatusCleared
      /** `s.lat` on the `null` entry `at` throws inside the marker loop: the
          markers of the entries before it stay on the map, and no fit, note or
          table follows. */
    | Aborted(at: nat, bounds: seq<MapManager.LatLng>)
    | Shown(markersByIndex: seq<Option<StopMarker>>, bounds: seq<MapManager.LatLng>,
            fitted: Option<MapManager.Viewport>, note: string, rows: seq<TableRow>)

  /** `fitBounds(bounds, { padding: [30, 30] })`. */
  const FIT_PADDING: int := 30

  /** The index of the first `null` entry, or the length when there is none. */
  function FirstNull(es: seq<StopEntry>): (k: nat)
    ensures k <= |es|
    ensures k < |es| ==> es[k].NullStop?
    ensures forall j :: 0 <= j < k ==> es[j].Present?
    decreases |es|
  {
    if es == [] || es[0].NullStop? then 0 else 1 + FirstNull(es[1..])
  }

  /** The stops of entries that are all objects. */
  function Records(es: seq<StopEntry>): (r: seq<StopRecord>)
    requires forall j :: 0 <= j < |es| ==> es[j].Present?
    ensures |r| == |es|
    ensures forall j :: 0 <= j < |es| ==> r[j] == es[j].record
  {
    seq(|es|, j requires 0 <= j < |es| => es[j].record)
  }

  /** The layout `renderFrequency` builds from a stop list without `null` entries. */
  method ShowStops(stops: seq<StopRecord>) returns (v: Rendered)
    ensures v.Shown? && |v.markersByIndex| == |stops|
    ensures forall i :: 0 <= i < |stops| ==>
              && (v.markersByIndex[i].Some? <==> Plottable(stops[i]))
              && (Plottable(stops[i]) ==> v.markersByIndex[i] == Some(MarkerOf(stops[i])))
    ensures v.rows == TableRows(stops) && v.note == NoteText(stops)
    ensures v.bounds == PlottedPoints(stops)
    ensures v.fitted == (if |v.bounds| > 0 then Some(MapManager.Fitted(MapManager.BoxOf(v.bounds), FIT_PADDING)) else None)
    ensures v.fitted.Some? ==> forall k :: 0 <= k < |v.bounds| ==> MapManager.InBox(v.bounds[k], v.fitted.value.box)
  {
    var markers, bounds := BuildMarkers(stops);
    var fitted := if |bounds| > 0 then Some(MapManager.Fitted(MapManager.BoxOf(bounds), FIT_PADDING)) else None;
    v := Shown(markers, bounds, fitted, NoteText(stops), TableRows(stops));
  }

  /** `renderFrequency` for one fetch outcome (`Failure` carries the error message). */
  method RenderFrequency(state: Router.State, response: Result<Payload, string>) returns (v: Rendered)
    ensures v.LoadFailed? <==> response.Failure?
    ensures v.LoadFailed? ==>
              v.status == "Could not load " + DataPath(state) + ". Did you generate it? (" + response.error + ")"
    ensures v.StatusCleared? <==> response == Success(NullPayload)
    ensures v.Aborted? <==>
              response.Success? && response.value.Payload?
              && exists j :: 0 <= j < |response.value.stops.GetOr([])| && response.value.stops.GetOr([])[j].NullStop?
    ensures v.Aborted? ==>
              var es := response.value.stops.GetOr([]);
              && v.at < |es| && es[v.at].NullStop?
              && (forall j :: 0 <= j < v.at ==> es[j].Present?)
              && v.bounds == PlottedPoints(Records(es[..v.at]))
    ensures v.Shown? ==>
              var es := response.value.stops.GetOr([]);
              && (forall j :: 0 <= j < |es| ==> es[j].Present?)
              && |v.rows| == |es| && |v.markersByIndex| == |es|
              && (forall i :: 0 <= i < |es| ==>
                    && (v.markersByIndex[i].Some? <==> Plottable(es[i].record))
                    && (Plottable(es[i].record) ==> v.markersByIndex[i] == Some(MarkerOf(es[i].record))))
              && v.rows == TableRows(Records(es))
              && v.note == NoteText(Records(es))
              && v.bounds == PlottedPoints(Records(es))
              && v.fitted == (if |v.bounds| > 0 then Some(MapManager.Fitted(MapManager.BoxOf(v.bounds), FIT_PADDING)) else None)
              && (v.fitted.Some? ==> forall k :: 0 <= k < |v.bounds| ==> MapManager.InBox(v.bounds[k], v.fitted.value.box))
  {
    match response {
      case Failure(msg) =>
        v := LoadFailed("Could not load " + DataPath(state) + ". Did you generate it? (" + msg + ")");
      case Success(NullPayload) =>
        v := StatusCleared;
      case Success(Payload(entries)) =>
        var es := entries.GetOr([]);
        var k := FirstNull(es);
        if k < |es| {
          var before := es[..k];
          var _, bounds := BuildMarkers(Records(before));
          v := Aborted(k, bounds);
        } else {
          v := ShowStops(Records(es));
        }
    }
  }
}

=== FILE: grouping.dfy ===
/** Grouping the rows of `stop_times.txt` by stop id, the loop both stop-analysis
    scripts share: an insertion-ordered Python dict from stop id to the list of
    its arrival times. */
module Grouping {

  /** One row of `stop_times.txt`, reduced to the two columns the scripts read. */
  datatype StopTimeRow = StopTimeRow(stopId: string, arrivalTime: string)

  /** One dict entry: a stop id and its arrival times in file order. */
  datatype Group = Group(id: string, arrivals: seq<string>)

  function RowIds(rows: seq<StopTimeRow>): (ids: seq<string>)
    ensures |ids| == |rows|
    ensures forall i :: 0 <= i < |rows| ==> ids[i] == rows[i].stopId
  {
    seq(|rows|, i requires 0 <= i < |rows| => rows[i].stopId)
  }

  function Ids(gs: seq<Group>): (ids: seq<string>)
    ensures |ids| == |gs|
    ensures forall k :: 0 <= k < |gs| ==> ids[k] == gs[k].id
  {
    seq(|gs|, k requires 0 <= k < |gs| => gs[k].id)
  }

  predicate Distinct(xs: seq<string>) {
    forall i, j :: 0 <= i < j < |xs| ==> xs[i] != xs[j]
  }

  /** The position of the first occurrence of `x`. */
  function FirstIndex(xs: seq<string>, x: string): (r: nat)
    requires x in xs
    ensures r < |xs| && xs[r] == x
    ensures forall j :: 0 <= j < r ==> xs[j] != x
    decreases |xs|
  {
    if xs[0] == x then 0 else 1 + FirstIndex(xs[1..], x)
  }

  /** The arrival times of the rows for `id`, in file order: the reference the
      grouping is checked against. */
  function ArrivalsOf(rows: seq<StopTimeRow>, id: string): seq<string>
    decreases |rows|
  {
    if rows == [] then []
    else
      var last := rows[|rows| - 1];
      ArrivalsOf(rows[..|rows| - 1], id) + (if last.stopId == id then [last.arrivalTime] else [])
  }

  /** The index of the group for `id`, or `-1` when there is none. */
  function IndexOf(gs: seq<Group>, id: string): (k: int)
    ensures -1 <= k < |gs|
    ensures k >= 0 ==> gs[k].id == id
    ensures k < 0 ==> id !in Ids(gs)
    decreases |gs|
  {
    if gs == [] then -1
    else if gs[|gs| - 1].id == id then |gs| - 1
    else IndexOf(gs[..|gs| - 1], id)
  }

  /** One iteration of the loop: append to the existing list, or start a new
      entry at the end of the dict. */
  function AddRow(gs: seq<Group>, row: StopTimeRow): seq<Group> {
    var k := IndexOf(gs, row.stopId);
    if k >= 0 then gs[k := Group(row.stopId, gs[k].arrivals + [row.arrivalTime])]
    else gs + [Group(row.stopId, [row.arrivalTime])]
  }

  lemma {:induction false} ArrivalsOfAbsent(rows: seq<StopTimeRow>, id: string)
    requires id !in RowIds(rows)
    ensures ArrivalsOf(rows, id) == []
    decreases |rows|
  {
    if rows != [] {
      var init := rows[..|rows| - 1];
      assert forall i :: 0 <= i < |init| ==> RowIds(init)[i] == RowIds(rows)[i];
      ArrivalsOfAbsent(init, id);
    }
  }

  /** `gs` is the dict of `rows`: one entry per distinct stop id, in the order of
      the ids' first rows, each holding all of that id's arrival times in file order. */
  ghost predicate GroupsOf(rows: seq<StopTimeRow>, gs: seq<Group>) {
    && Distinct(Ids(gs))
    && (forall id :: id in Ids(gs) <==> id in RowIds(rows))
    && (forall k :: 0 <= k < |gs| ==> gs[k].arrivals == ArrivalsOf(rows, gs[k].id))
    && (forall k1, k2 :: 0 <= k1 < k2 < |gs| ==>
          FirstIndex(RowIds(rows), gs[k1].id) < FirstIndex(RowIds(rows), gs[k2].id))
  }

  /** A row appended to the file does not move the first occurrence of an id already seen. */
  lemma FirstIndexAppend(init: seq<StopTimeRow>, row: StopTimeRow, id: string)
    requires id in RowIds(init)
    ensures RowIds(init + [row]) == RowIds(init) + [row.stopId]
    ensures FirstIndex(RowIds(init + [row]), id) == FirstIndex(RowIds(init), id)
  {
    var rows := init + [row];
    assert RowIds(rows) == RowIds(init) + [row.stopId];
    var a, b := FirstIndex(RowIds(rows), id), FirstIndex(RowIds(init), id);
    assert RowIds(rows)[b] == id;
  }

  /** A row whose id already has an entry extends that entry. */
  lemma AddRowExisting(init: seq<StopTimeRow>, row: StopTimeRow, prev: seq<Group>)
    requires GroupsOf(init, prev)
    requires IndexOf(prev, row.stopId) >= 0
    ensures GroupsOf(init + [row], AddRow(prev, row))
  {
    var rows := init + [row];
    var k := IndexOf(prev, row.stopId);
    var gs := AddRow(prev, row);
    assert rows[..|rows| - 1] == init;
    assert Ids(gs) == Ids(prev);
    assert row.stopId in RowIds(init);
    FirstIndexAppend(init, row, row.stopId);
    forall id | id in RowIds(init)
      ensures FirstIndex(RowIds(rows), id) == FirstIndex(RowIds(init), id)
    {
      FirstIndexAppend(init, row, id);
    }
    forall j | 0 <= j < |gs|
      ensures gs[j].arrivals == ArrivalsOf(rows, gs[j].id)
    {
      if j != k {
        assert gs[j] == prev[j] && prev[j].id != row.stopId;
      }
    }
  }

  /** A row with a new id opens an entry at the end of the dict. */
  lemma AddRowNew(init: seq<StopTimeRow>, row: StopTimeRow, prev: seq<Group>)
    requires GroupsOf(init, prev)
    requires IndexOf(prev, row.stopId) < 0
    ensures GroupsOf(init + [row], AddRow(prev, row))
  {
    var rows := init + [row];
    var gs := AddRow(prev, row);
    assert RowIds(rows) == RowIds(init) + [row.stopId];
    assert row.stopId !in RowIds(init);
    assert Ids(gs) == Ids(prev) + [row.stopId];
    AddRowNewArrivals(init, row, prev);
    AddRowNewOrder(init, row, prev);
  }

  /** The new entry holds the row's time alone, and the old entries keep theirs. */
  lemma AddRowNewArrivals(init: seq<StopTimeRow>, row: StopTimeRow, prev: seq<Group>)
    requires GroupsOf(init, prev)
    requires IndexOf(prev, row.stopId) < 0
    ensures var gs := AddRow(prev, row);
      forall k :: 0 <= k < |gs| ==> gs[k].arrivals == ArrivalsOf(init + [row], gs[k].id)
  {
    var rows := init + [row];
    var gs := AddRow(prev, row);
    assert rows[..|rows| - 1] == init;
    assert row.stopId !in RowIds(init);
    ArrivalsOfAbsent(init, row.stopId);
    forall j | 0 <= j < |prev|
      ensures gs[j].arrivals == ArrivalsOf(rows, gs[j].id)
    {
      assert gs[j] == prev[j] && prev[j].id != row.stopId;
    }
  }

  /** The new entry's id is first seen after every old entry's. */
  lemma AddRowNewOrder(init: seq<StopTimeRow>, row: StopTimeRow, prev: seq<Group>)
    requires GroupsOf(init, prev)
    requires IndexOf(prev, row.stopId) < 0
    ensures var gs := AddRow(prev, row);
      forall k :: 0 <= k < |gs| ==> gs[k].id in RowIds(init + [row])
    ensures var gs := AddRow(prev, row);
      forall k1, k2 :: 0 <= k1 < k2 < |gs| ==>
        FirstIndex(RowIds(init + [row]), gs[k1].id) < FirstIndex(RowIds(init + [row]), gs[k2].id)
  {
    var rows := init + [row];
    var gs := AddRow(prev, row);
    assert gs == prev + [Group(row.stopId, [row.arrivalTime])];
    assert RowIds(rows) == RowIds(init) + [row.stopId];
    forall k | 0 <= k < |prev| ensures prev[k].id in RowIds(init) {
      assert Ids(prev)[k] == prev[k].id;
    }
    NewIdFirstAt(init, row);
    forall k1, k2 | 0 <= k1 < k2 < |gs|
      ensures FirstIndex(RowIds(rows), gs[k1].id) < FirstIndex(RowIds(rows), gs[k2].id)
    {
      FirstIndexAppend(init, row, prev[k1].id);
      if k2 < |prev| {
        FirstIndexAppend(init, row, prev[k2].id);
      }
    }
  }

  /** A row whose id is new is that id's first occurrence. */
  lemma NewIdFirstAt(init: seq<StopTimeRow>, row: StopTimeRow)
    requires row.stopId !in RowIds(init)
    ensures row.stopId in RowIds(init + [row])
    ensures FirstIndex(RowIds(init + [row]), row.stopId) == |init|
  {
    assert RowIds(init + [row]) == RowIds(init) + [row.stopId];
  }

  /** The loop over `stop_times.txt`: every stop id gets exactly one entry,
      created at its first row, holding all of its arrival times in file order. */
  function GroupArrivals(rows: seq<StopTimeRow>): (gs: seq<Group>)
    ensures GroupsOf(rows, gs)
    decreases |rows|
  {
    if rows == [] then []
    else
      var init, row := rows[..|rows| - 1], rows[|rows| - 1];
      var prev := GroupArrivals(init);
      assert init + [row] == rows;
      if IndexOf(prev, row.stopId) >= 0 then
        AddRowExisting(init, row, prev);
        AddRow(prev, row)
      else
        AddRowNew(init, row, prev);
        AddRow(prev, row)
  }

  /** Every row's arrival time is in the group of its stop id. */
  lemma {:induction false} ArrivalInItsGroup(rows: seq<StopTimeRow>, i: nat)
    requires i < |rows|
    ensures rows[i].arrivalTime in ArrivalsOf(rows, rows[i].stopId)
    decreases |rows|
  {
    if i < |rows| - 1 {
      ArrivalInItsGroup(rows[..|rows| - 1], i);
    }
  }

  /** Every grouped arrival time comes from a row of that stop id. */
  lemma {:induction false} GroupedArrivalFromRow(rows: seq<StopTimeRow>, id: string, t: string)
    requires t in ArrivalsOf(rows, id)
    ensures exists i :: 0 <= i < |rows| && rows[i].stopId == id && rows[i].arrivalTime == t
    decreases |rows|
  {
    var init, last := rows[..|rows| - 1], rows[|rows| - 1];
    if t in ArrivalsOf(init, id) {
      GroupedArrivalFromRow(init, id, t);
      var i :| 0 <= i < |init| && init[i].stopId == id && init[i].arrivalTime == t;
      assert rows[i] == init[i];
    } else {
      assert rows[|rows| - 1].stopId == id && rows[|rows| - 1].arrivalTime == t;
    }
  }
}

=== FILE: html.dfy ===
/** The string helpers of `docs/scripts/utils.js` (copied into `docs/app.js`):
    `escapeHtml`, `capitalize` and `formatTimeWindow`. */
module Html {
  import opened Strings

  /** `escapeHtml`: five `replaceAll` calls, `&` first. */
  function EscapeHtmlChained(s: string): string {
    var s1 := ReplaceAll(s, '&', "&amp;");
    var s2 := ReplaceAll(s1, '<', "&lt;");
    var s3 := ReplaceAll(s2, '>', "&gt;");
    var s4 := ReplaceAll(s3, '"', "&quot;");
    ReplaceAll(s4, '\'', "&#039;")
  }

  /** The entity each character ends up as. */
  function EscapeChar(c: char): string {
    if c == '&' then "&amp;"
    else if c == '<' then "&lt;"
    else if c == '>' then "&gt;"
    else if c == '"' then "&quot;"
    else if c == '\'' then "&#039;"
    else [c]
  }

  /** Every character replaced by its entity, in one pass. */
  function EscapePerChar(s: string): string
    decreases |s|
  {
    if s == [] then [] else EscapeChar(s[0]) + EscapePerChar(s[1..])
  }

  predicate Special(c: char) {
    c == '<' || c == '>' || c == '"' || c == '\''
  }

  /** The chain on one character is its entity: since `&` goes first, the `&`
      of an entity written later is never escaped again. */
  lemma EscapeChainedOneChar(c: char)
    ensures EscapeHtmlChained([c]) == EscapeChar(c)
  {
    ReplaceAllOne(c, '&', "&amp;");
    var s1 := ReplaceAll([c], '&', "&amp;");
    if c == '&' {
      EntityFree("&amp;");
    } else {
      ReplaceAllOne(c, '<', "&lt;");
      if c == '<' {
        EntityFree("&lt;");
      } else {
        ReplaceAllOne(c, '>', "&gt;");
        if c == '>' {
          EntityFree("&gt;");
        } else {
          ReplaceAllOne(c, '"', "&quot;");
          if c == '"' {
            EntityFree("&quot;");
          } else {
            ReplaceAllOne(c, '\'', "&#039;");
          }
        }
      }
    }
  }

  lemma ReplaceAllOne(c: char, p: char, r: string)
    ensures ReplaceAll([c], p, r) == if c == p then r else [c]
  {
    assert [c][1..] == [];
  }

  /** An entity contains none of the characters replaced after `&`, so the later
      replacements leave it alone. */
  lemma EntityFree(e: string)
    requires e in {"&amp;", "&lt;", "&gt;", "&quot;"}
    ensures ReplaceAll(e, '<', "&lt;") == e
    ensures ReplaceAll(e, '>', "&gt;") == e
    ensures ReplaceAll(e, '"', "&quot;") == e
    ensures ReplaceAll(e, '\'', "&#039;") == e
  {
    assert forall i :: 0 <= i < |e| ==> e[i] in "&#amplgtquo;" ;
    assert '<' !in e && '>' !in e && '"' !in e && '\'' !in e;
    ReplaceAllAbsent(e, '<', "&lt;");
    ReplaceAllAbsent(e, '>', "&gt;");
    ReplaceAllAbsent(e, '"', "&quot;");
    ReplaceAllAbsent(e, '\'', "&#039;");
  }

  lemma {:induction false} EscapeChainedAppend(a: string, b: string)
    ensures EscapeHtmlChained(a + b) == EscapeHtmlChained(a) + EscapeHtmlChained(b)
  {
    ReplaceAllAppend(a, b, '&', "&amp;");
    var a1, b1 := ReplaceAll(a, '&', "&amp;"), ReplaceAll(b, '&', "&amp;");
    ReplaceAllAppend(a1, b1, '<', "&lt;");
    var a2, b2 := ReplaceAll(a1, '<', "&lt;"), ReplaceAll(b1, '<', "&lt;");
    ReplaceAllAppend(a2, b2, '>', "&gt;");
    var a3, b3 := ReplaceAll(a2, '>', "&gt;"), ReplaceAll(b2, '>', "&gt;");
    ReplaceAllAppend(a3, b3, '"', "&quot;");
    var a4, b4 := ReplaceAll(a3, '"', "&quot;"), ReplaceAll(b3, '"', "&quot;");
    ReplaceAllAppend(a4, b4, '\'', "&#039;");
  }

  /** The chained replacement equals the one-pass escape. */
  lemma {:induction false} EscapeChainedIsPerChar(s: string)
    ensures EscapeHtmlChained(s) == EscapePerChar(s)
    decreases |s|
  {
    if s != [] {
      assert s == [s[0]] + s[1..];
      EscapeChainedAppend([s[0]], s[1..]);
      EscapeChainedOneChar(s[0]);
      EscapeChainedIsPerChar(s[1..]);
    }
  }

  lemma {:induction false} EscapePerCharNoSpecial(s: string)
    ensures forall i :: 0 <= i < |EscapePerChar(s)| ==> !Special(EscapePerChar(s)[i])
    decreases |s|
  {
    if s != [] {
      EscapePerCharNoSpecial(s[1..]);
      var e, rest := EscapeChar(s[0]), EscapePerChar(s[1..]);
      assert forall i :: 0 <= i < |e| ==> !Special(e[i]);
      assert EscapePerChar(s) == e + rest;
      forall i | 0 <= i < |e + rest| ensures !Special((e + rest)[i]) {
        if i >= |e| { assert (e + rest)[i] == rest[i - |e|]; }
      }
    }
  }

  /** Decodes the five entities `escapeHtml` writes; every other character is kept. */
  function Unescape(s: string): string
    decreases |s|
  {
    if s == [] then []
    else if StartsWith(s, "&amp;") then "&" + Unescape(s[5..])
    else if StartsWith(s, "&lt;") then "<" + Unescape(s[4..])
    else if StartsWith(s, "&gt;") then ">" + Unescape(s[4..])
    else if StartsWith(s, "&quot;") then "\"" + Unescape(s[6..])
    else if StartsWith(s, "&#039;") then "'" + Unescape(s[6..])
    else [s[0]] + Unescape(s[1..])
  }

  /** An entity in front of `rest` decodes to its character. */
  lemma UnescapeEntity(c: char, rest: string)
    requires Special(c) || c == '&'
    ensures Unescape(EscapeChar(c) + rest) == [c] + Unescape(rest)
  {
    var t := EscapeChar(c) + rest;
    if c == '&' {
      assert t[..5] == "&amp;" && t[5..] == rest;
    } else if c == '<' {
      assert t[..4] == "&lt;" && t[4..] == rest;
      assert !StartsWith(t, "&amp;") by { assert t[1] == 'l'; }
    } else if c == '>' {
      assert t[..4] == "&gt;" && t[4..] == rest;
      assert !StartsWith(t, "&amp;") && !StartsWith(t, "&lt;") by { assert t[1] == 'g'; }
    } else if c == '"' {
      UnescapeQuot(rest);
    } else {
      UnescapeApos(rest);
    }
  }

  lemma UnescapeQuot(rest: string)
    ensures Unescape("&quot;" + rest) == "\"" + Unescape(rest)
  {
    var t := "&quot;" + rest;
    assert t[..6] == "&quot;" && t[6..] == rest;
    assert !StartsWith(t, "&amp;") && !StartsWith(t, "&lt;") && !StartsWith(t, "&gt;") by {
      assert t[1] == 'q';
    }
  }

  lemma UnescapeApos(rest: string)
    ensures Unescape("&#039;" + rest) == "'" + Unescape(rest)
  {
    var t := "&#039;" + rest;
    assert t[..6] == "&#039;" && t[6..] == rest;
    assert !StartsWith(t, "&amp;") && !StartsWith(t, "&lt;") && !StartsWith(t, "&gt;")
        && !StartsWith(t, "&quot;") by {
      assert t[1] == '#';
    }
  }

  lemma UnescapeEscapeChar(c: char, rest: string)
    ensures Unescape(EscapeChar(c) + rest) == [c] + Unescape(rest)
  {
    if Special(c) || c == '&' {
      UnescapeEntity(c, rest);
    } else {
      assert EscapeChar(c) == [c];
      UnescapePlain(c, rest);
    }
  }

  /** A character other than `&` starts no entity and is kept. */
  lemma UnescapePlain(c: char, rest: string)
    requires c != '&'
    ensures Unescape([c] + rest) == [c] + Unescape(rest)
  {
    var t := [c] + rest;
    assert t[0] == c && t[1..] == rest;
    forall p | |p| > 0 && p[0] == '&' ensures !StartsWith(t, p) {
      if |p| <= |t| { assert t[..|p|][0] == c; }
    }
  }

  lemma {:induction false} UnescapePerChar(s: string)
    ensures Unescape(EscapePerChar(s)) == s
    decreases |s|
  {
    if s != [] {
      UnescapeEscapeChar(s[0], EscapePerChar(s[1..]));
      UnescapePerChar(s[1..]);
      assert [s[0]] + s[1..] == s;
    }
  }

  /** `escapeHtml`: the result contains no `<`, `>`, `"` or `'`, and decoding the
      entities gives the input back, so nothing is escaped twice. */
  function EscapeHtml(s: string): (r: string)
    ensures forall i :: 0 <= i < |r| ==> !Special(r[i])
    ensures Unescape(r) == s
  {
    EscapeChainedIsPerChar(s);
    EscapePerCharNoSpecial(s);
    UnescapePerChar(s);
    EscapeHtmlChained(s)
  }

  /** `toUpperCase` on one character, for the ASCII letters. */
  function ToUpper(c: char): char {
    if 'a' <= c <= 'z' then (c as int - 32) as char else c
  }

  /** `s.charAt(0).toUpperCase() + s.slice(1)`. */
  function Capitalize(s: string): (r: string)
    ensures |r| == |s|
    ensures s == [] ==> r == []
    ensures s != [] ==> r[0] == ToUpper(s[0]) && r[1..] == s[1..]
  {
    if s == [] then [] else [ToUpper(s[0])] + s[1..]
  }

  /** Capitalising twice is capitalising once. */
  lemma CapitalizeIdempotent(s: string)
    ensures Capitalize(Capitalize(s)) == Capitalize(s)
  {
  }

  /** `window.replace("_", ":00-") + ":00"`. */
  function FormatTimeWindow(w: string): string {
    ReplaceFirst(w, '_', ":00-") + ":00"
  }

  /** Only the first `_` becomes `:00-`; anything after it is kept as it is. */
  lemma FormatTimeWindowAtFirstUnderscore(a: string, b: string)
    requires '_' !in a
    ensures FormatTimeWindow(a + "_" + b) == a + ":00-" + b + ":00"
  {
    ReplaceFirstAt(a, b, '_', ":00-");
  }

  /** Without an `_` the window only gains `:00`. */
  lemma FormatTimeWindowNoUnderscore(w: string)
    requires '_' !in w
    ensures FormatTimeWindow(w) == w + ":00"
  {
    ReplaceFirstAbsent(w, '_', ":00-");
  }

  lemma FormatTimeWindowDefault()
    ensures FormatTimeWindow("16_18") == "16:00-18:00"
  {
    FormatTimeWindowAtFirstUnderscore("16", "18");
    assert "16" + "_" + "18" == "16_18";
  }
}

=== FILE: legacy_stop_analysis.dfy ===
/** The earlier stop-frequency script at the repository root, `stop_analysis.py`:
    the same grouping and window, but stops start with the name `'default'`, the
    sort runs over `(frequency, stop)` pairs, and the listing skips stops whose
    gap is zero. */
module LegacyStopAnalysis {
  import opened Wrappers
  import opened Sorting
  import opened Grouping
  import StopAnalysis

  /** The script's own `stop` class: id, name and gap. */
  datatype LegacyStop = LegacyStop(id: string, name: string, frequency: int)

  /** One row of `stops.txt`, reduced to the two columns this script reads. */
  datatype NameRow = NameRow(stopId: string, stopName: string)

  /** An entry of `stops_sorted_by_frequency`. The pair holds the stop object
      itself, so a name set later shows through it; the model therefore builds
      the pairs from the stops after names are attached. */
  datatype Pair = Pair(frequency: int, stop: LegacyStop)

  /** One printed line: id, gap in seconds, estimated minutes, name. */
  datatype Line = Line(id: string, frequency: int, minutes: int, name: string)

  /** `stop(current_id, 'default', 0)`. */
  function CreateStop(id: string): LegacyStop {
    LegacyStop(id, "default", 0)
  }

  /** One stop per dict entry, in dict order, with the window's average gap. */
  function LegacyStops(gs: seq<Group>): (r: Result<seq<LegacyStop>, StopAnalysis.AnalysisError>)
    ensures r.Success? <==> forall k :: 0 <= k < |gs| ==> StopAnalysis.StopFrequency(gs[k]).Some?
    ensures r.Success? ==> |r.value| == |gs|
    ensures r.Success? ==> forall k :: 0 <= k < |gs| ==>
              r.value[k] == CreateStop(gs[k].id).(frequency := StopAnalysis.StopFrequency(gs[k]).value)
    decreases |gs|
  {
    if gs == [] then Success([])
    else
      match (StopAnalysis.StopFrequency(gs[0]), LegacyStops(gs[1..]))
      case (Some(f), Success(rest)) => Success([CreateStop(gs[0].id).(frequency := f)] + rest)
      case (None, _) => Failure(StopAnalysis.MalformedArrivalTime)
      case (_, Failure(e)) =>
        assert forall k :: 0 <= k < |gs[1..]| ==> gs[1..][k] == gs[k + 1];
        Failure(e)
  }

  /** The name in the last `stops.txt` row for `id`, if any. */
  function LastNameFor(rows: seq<NameRow>, id: string): Option<string>
    decreases |rows|
  {
    if rows == [] then None
    else if rows[|rows| - 1].stopId == id then Some(rows[|rows| - 1].stopName)
    else LastNameFor(rows[..|rows| - 1], id)
  }

  /** One row of `stops.txt`: only a stop whose id is known takes the name. */
  function NameRowStep(stops: seq<LegacyStop>, row: NameRow): (r: seq<LegacyStop>)
    ensures |r| == |stops|
  {
    seq(|stops|, k requires 0 <= k < |stops| =>
      if stops[k].id == row.stopId then stops[k].(name := row.stopName) else stops[k])
  }

  /** The `stops.txt` loop: a stop ends with the name of the last row for its id,
      and keeps its name when there is no such row; ids and gaps never change. */
  function AttachNames(stops: seq<LegacyStop>, rows: seq<NameRow>): (r: seq<LegacyStop>)
    ensures |r| == |stops|
    ensures forall k :: 0 <= k < |stops| ==>
              r[k] == stops[k].(name := LastNameFor(rows, stops[k].id).GetOr(stops[k].name))
    decreases |rows|
  {
    if rows == [] then stops
    else NameRowStep(AttachNames(stops, rows[..|rows| - 1]), rows[|rows| - 1])
  }

  /** The sort key `lambda pair: pair[0]`. */
  predicate PairLe(a: Pair, b: Pair) {
    a.frequency <= b.frequency
  }

  lemma PairLeTotalPreorder()
    ensures TotalPreorder(PairLe)
  {
  }

  function Pairs(stops: seq<LegacyStop>): (ps: seq<Pair>)
    ensures |ps| == |stops|
    ensures forall k :: 0 <= k < |stops| ==> ps[k] == Pair(stops[k].frequency, stops[k])
  {
    seq(|stops|, k requires 0 <= k < |stops| => Pair(stops[k].frequency, stops[k]))
  }

  /** `stops_sorted_by_frequency.sort(key=lambda pair: pair[0])`. */
  function SortPairs(ps: seq<Pair>): (r: seq<Pair>)
    ensures multiset(r) == multiset(ps)
    ensures forall i, j :: 0 <= i < j < |r| ==> r[i].frequency <= r[j].frequency
  {
    PairLeTotalPreorder();
    SortBy(ps, PairLe)
  }

  /** The sort is stable: pairs with equal gaps keep their dict order. */
  lemma SortPairsStable(ps: seq<Pair>, y: Pair)
    ensures Ties(SortPairs(ps), PairLe, y) == Ties(ps, PairLe, y)
  {
    PairLeTotalPreorder();
    SortByStable(ps, PairLe, y);
  }

  /** `int(x / 60)` for an integer `x`: true division, then truncation toward zero. */
  function TruncDiv60(x: int): (q: int)
    ensures x >= 0 ==> 60 * q <= x < 60 * q + 60
    ensures x < 0 ==> 60 * q - 60 < x <= 60 * q
  {
    if x >= 0 then x / 60 else -((-x) / 60)
  }

  /** `int(freq/60) + 1`: the gap rounded down to whole minutes, plus one. */
  function MinuteEstimate(freq: int): (m: int)
    ensures freq >= 0 ==> 60 * (m - 1) <= freq < 60 * m
  {
    TruncDiv60(freq) + 1
  }

  /** The output loop: every pair with a non-zero gap, in sorted order. */
  function Listing(sorted: seq<Pair>): (lines: seq<Line>)
    ensures forall l :: l in lines ==> l.frequency != 0
    ensures forall p :: p in sorted && p.frequency != 0 ==>
              Line(p.stop.id, p.frequency, MinuteEstimate(p.frequency), p.stop.name) in lines
    ensures forall l :: l in lines ==>
              exists p :: p in sorted && l == Line(p.stop.id, p.frequency, MinuteEstimate(p.frequency), p.stop.name)
    ensures |lines| <= |sorted|
    decreases |sorted|
  {
    if sorted == [] then []
    else
      var p := sorted[0];
      assert forall q :: q in sorted ==> q == p || q in sorted[1..];
      (if p.frequency == 0 then [] else [Line(p.stop.id, p.frequency, MinuteEstimate(p.frequency), p.stop.name)])
        + Listing(sorted[1..])
  }

  /** The output loop prints pair by pair: listing distributes over concatenation,
      so lines keep the order of their pairs, ties included. */
  lemma {:induction false} ListingAppend(a: seq<Pair>, b: seq<Pair>)
    ensures Listing(a + b) == Listing(a) + Listing(b)
    decreases |a|
  {
    if a == [] {
      assert a + b == b;
    } else {
      assert (a + b)[1..] == a[1..] + b;
      ListingAppend(a[1..], b);
    }
  }

  /** A lower bound on the pairs' gaps bounds the listed gaps too. */
  lemma ListingLowerBound(sorted: seq<Pair>, b: int)
    requires forall k :: 0 <= k < |sorted| ==> b <= sorted[k].frequency
    ensures forall k :: 0 <= k < |Listing(sorted)| ==> b <= Listing(sorted)[k].frequency
  {
    var lines := Listing(sorted);
    forall k | 0 <= k < |lines| ensures b <= lines[k].frequency {
      assert lines[k] in lines;
      var p :| p in sorted && lines[k] == Line(p.stop.id, p.frequency, MinuteEstimate(p.frequency), p.stop.name);
    }
  }

  /** The sorted pairs without their first one are still sorted. */
  lemma TailOrdered(sorted: seq<Pair>)
    requires sorted != []
    requires forall i, j :: 0 <= i < j < |sorted| ==> sorted[i].frequency <= sorted[j].frequency
    ensures forall i, j :: 0 <= i < j < |sorted[1..]| ==> sorted[1..][i].frequency <= sorted[1..][j].frequency
    ensures forall k :: 0 <= k < |sorted[1..]| ==> sorted[0].frequency <= sorted[1..][k].frequency
  {
    assert forall k :: 0 <= k < |sorted[1..]| ==> sorted[1..][k] == sorted[k + 1];
  }

  /** A line in front of an ordered listing whose gaps it does not exceed keeps it ordered. */
  lemma ConsOrdered(l: Line, rest: seq<Line>)
    requires forall i, j :: 0 <= i < j < |rest| ==> rest[i].frequency <= rest[j].frequency
    requires forall k :: 0 <= k < |rest| ==> l.frequency <= rest[k].frequency
    ensures forall i, j :: 0 <= i < j < |[l] + rest| ==> ([l] + rest)[i].frequency <= ([l] + rest)[j].frequency
  {
    var lines := [l] + rest;
    forall i, j | 0 <= i < j < |lines| ensures lines[i].frequency <= lines[j].frequency {
      assert lines[j] == rest[j - 1];
      if i > 0 { assert lines[i] == rest[i - 1]; }
    }
  }

  /** The listing keeps the order of the pairs it was built from. */
  lemma {:induction false} ListingOrdered(sorted: seq<Pair>)
    requires forall i, j :: 0 <= i < j < |sorted| ==> sorted[i].frequency <= sorted[j].frequency
    ensures forall i, j :: 0 <= i < j < |Listing(sorted)| ==>
              Listing(sorted)[i].frequency <= Listing(sorted)[j].frequency
    decreases |sorted|
  {
    if sorted != [] {
      var p, tail := sorted[0], sorted[1..];
      TailOrdered(sorted);
      ListingOrdered(tail);
      ListingLowerBound(tail, p.frequency);
      if p.frequency != 0 {
        ConsOrdered(Line(p.stop.id, p.frequency, MinuteEstimate(p.frequency), p.stop.name), Listing(tail));
      }
    }
  }

  /** The whole script for one city. */
  function Run(stopTimes: seq<StopTimeRow>, nameRows: seq<NameRow>)
    : Result<seq<Line>, StopAnalysis.AnalysisError>
  {
    match LegacyStops(GroupArrivals(stopTimes))
    case Failure(e) => Failure(e)
    case Success(stops) => Success(Listing(SortPairs(Pairs(AttachNames(stops, nameRows)))))
  }

  /** After the `stops.txt` loop, stop `k` still belongs to dict entry `k` and is
      named by its last `stops.txt` row or keeps `'default'`. */
  lemma NamedStops(gs: seq<Group>, nameRows: seq<NameRow>, stops: seq<LegacyStop>)
    requires LegacyStops(gs) == Success(stops)
    ensures var named := AttachNames(stops, nameRows);
      && |named| == |gs|
      && forall k :: 0 <= k < |gs| ==>
           && named[k].id == gs[k].id
           && named[k].name == LastNameFor(nameRows, gs[k].id).GetOr("default")
  {
    assert |stops| == |gs|;
    forall k | 0 <= k < |gs| ensures stops[k].id == gs[k].id && stops[k].name == "default" {
      assert stops[k] == CreateStop(gs[k].id).(frequency := StopAnalysis.StopFrequency(gs[k]).value);
    }
  }

  /** Exactly one pair per distinct stop id of `stop_times.txt`, in first-seen
      order, and each pair's key is its stop's gap. */
  lemma OnePairPerStop(stopTimes: seq<StopTimeRow>, nameRows: seq<NameRow>, stops: seq<LegacyStop>)
    requires LegacyStops(GroupArrivals(stopTimes)) == Success(stops)
    ensures var ps := Pairs(AttachNames(stops, nameRows));
      && Ids(GroupArrivals(stopTimes)) == seq(|ps|, k requires 0 <= k < |ps| => ps[k].stop.id)
      && (forall id :: id in RowIds(stopTimes) <==> exists k :: 0 <= k < |ps| && ps[k].stop.id == id)
      && (forall k1, k2 :: 0 <= k1 < k2 < |ps| ==> ps[k1].stop.id != ps[k2].stop.id)
      && (forall k :: 0 <= k < |ps| ==> ps[k].frequency == ps[k].stop.frequency)
  {
    var gs := GroupArrivals(stopTimes);
    var ps := Pairs(AttachNames(stops, nameRows));
    NamedStops(gs, nameRows, stops);
    PairIdsFollowGroups(stopTimes, gs, ps);
  }

  lemma PairIdsFollowGroups(rows: seq<StopTimeRow>, gs: seq<Group>, ps: seq<Pair>)
    requires GroupsOf(rows, gs)
    requires |ps| == |gs| && forall k :: 0 <= k < |gs| ==> ps[k].stop.id == gs[k].id
    ensures Ids(gs) == seq(|ps|, k requires 0 <= k < |ps| => ps[k].stop.id)
    ensures forall id :: id in RowIds(rows) <==> exists k :: 0 <= k < |ps| && ps[k].stop.id == id
    ensures forall k1, k2 :: 0 <= k1 < k2 < |ps| ==> ps[k1].stop.id != ps[k2].stop.id
  {
    var ids := seq(|ps|, k requires 0 <= k < |ps| => ps[k].stop.id);
    assert Ids(gs) == ids;
    assert forall id :: id in ids <==> exists k :: 0 <= k < |ps| && ps[k].stop.id == id;
  }

  /** A pair's stop is named by the last `stops.txt` row for its id, or keeps
      `'default'` when `stops.txt` has no row for it. */
  lemma PairNames(stopTimes: seq<StopTimeRow>, nameRows: seq<NameRow>, stops: seq<LegacyStop>)
    requires LegacyStops(GroupArrivals(stopTimes)) == Success(stops)
    ensures var ps := Pairs(AttachNames(stops, nameRows));
      forall k :: 0 <= k < |ps| ==>
        ps[k].stop.name == LastNameFor(nameRows, ps[k].stop.id).GetOr("default")
  {
    NamedStops(GroupArrivals(stopTimes), nameRows, stops);
  }

  /** The printed lines are the non-zero-gap stops, in non-decreasing gap order. */
  lemma RunListing(stopTimes: seq<StopTimeRow>, nameRows: seq<NameRow>)
    requires Run(stopTimes, nameRows).Success?
    ensures var lines := Run(stopTimes, nameRows).value;
      && (forall l :: l in lines ==> l.frequency != 0 && l.minutes == MinuteEstimate(l.frequency))
      && (forall i, j :: 0 <= i < j < |lines| ==> lines[i].frequency <= lines[j].frequency)
  {
    var stops := LegacyStops(GroupArrivals(stopTimes)).value;
    ListingOrdered(SortPairs(Pairs(AttachNames(stops, nameRows))));
  }
}

=== FILE: map_manager.dfy ===
/** `docs/scripts/map_manager.js`: the module-level Leaflet map, its marker layer
    and its GeoJSON layer, as one state record. The map is a token, a layer is the
    sequence of what was added to it, and the viewport is a value. */
module MapManager {
  import opened Wrappers

  datatype LatLng = LatLng(lat: real, lon: real)

  /** The box Leaflet fits the view to. */
  datatype Box = Box(south: real, west: real, north: real, east: real)

  predicate InBox(p: LatLng, b: Box) {
    b.south <= p.lat <= b.north && b.west <= p.lon <= b.east
  }

  /** Where the view was last put. */
  datatype Viewport = Unset | Fitted(box: Box, padding: int)

  /** `L.circleMarker([lat, lon], options)`, with the popup bound to it if any. */
  datatype Marker = Marker(at: LatLng, options: MarkerOptions, popup: Option<string>)

  datatype MarkerOptions = MarkerOptions(radius: real, color: string, fillColor: string,
                                         fillOpacity: real, weight: real)

  /** A GeoJSON feature, reduced to its coordinates; every feature has at least one. */
  datatype Feature = Feature(first: LatLng, more: seq<LatLng>)

  /** An `L.geoJSON(data, {style})` layer; the style callback is a token. */
  datatype GeoLayer = GeoLayer(features: seq<Feature>, style: nat)

  /** The module's variables `map` (here `leaflet`), `markerLayer` and
      `geoJsonLayer` (`null` is `None`), the viewport, and the token the next
      `L.map` call creates. */
  datatype MapState = MapState(
    leaflet: Option<nat>,
    markerLayer: Option<seq<Marker>>,
    geoJsonLayer: Option<seq<GeoLayer>>,
    view: Viewport,
    nextMap: nat)

  const INITIAL: MapState := MapState(None, None, None, Unset, 0)

  /** No layer outlives its map, a live map always has its marker layer, and a
      live map's token was handed out. */
  predicate Wf(s: MapState) {
    && (s.leaflet.None? ==> s.markerLayer.None? && s.geoJsonLayer.None?)
    && (s.leaflet.Some? ==> s.markerLayer.Some? && s.leaflet.value < s.nextMap)
  }

  /** The smallest box holding every point. */
  function BoxOf(points: seq<LatLng>): (b: Box)
    requires |points| > 0
    ensures forall i :: 0 <= i < |points| ==> InBox(points[i], b)
    ensures exists i :: 0 <= i < |points| && points[i].lat == b.south
    ensures exists i :: 0 <= i < |points| && points[i].lat == b.north
    ensures exists i :: 0 <= i < |points| && points[i].lon == b.west
    ensures exists i :: 0 <= i < |points| && points[i].lon == b.east
    decreases |points|
  {
    var p := points[|points| - 1];
    if |points| == 1 then Box(p.lat, p.lon, p.lat, p.lon)
    else
      var b := BoxOf(points[..|points| - 1]);
      assert forall i :: 0 <= i < |points| - 1 ==> points[..|points| - 1][i] == points[i];
      Box(if p.lat < b.south then p.lat else b.south,
          if p.lon < b.west then p.lon else b.west,
          if p.lat > b.north then p.lat else b.north,
          if p.lon > b.east then p.lon else b.east)
  }

  /** The result of `ensureMap`: the new state and the returned map (or `null`). */
  datatype Ensured = Ensured(state: MapState, leaflet: Option<nat>)

  /** `ensureMap`. `hasElement` says whether `document.getElementById("map")`
      finds an element. */
  function EnsureMap(s: MapState, hasElement: bool): (r: Ensured)
    ensures s.leaflet.Some? ==> r == Ensured(s, s.leaflet)
    ensures s.leaflet.None? && !hasElement ==> r == Ensured(s, None)
    ensures s.leaflet.None? && hasElement ==>
              && r.leaflet == Some(s.nextMap)
              && r.state.markerLayer == Some([])
              && r.state.view == Unset
              && r.state.geoJsonLayer == s.geoJsonLayer
    ensures r.leaflet == r.state.leaflet
    ensures Wf(s) ==> Wf(r.state)
  {
    if s.leaflet.Some? then Ensured(s, s.leaflet)
    else if !hasElement then Ensured(s, None)
    else
      var m := s.nextMap;
      Ensured(s.(leaflet := Some(m), markerLayer := Some([]), view := Unset, nextMap := m + 1), Some(m))
  }

  /** A second `ensureMap` returns the same map and changes nothing. */
  lemma EnsureMapIdempotent(s: MapState, hasElement: bool, again: bool)
    requires EnsureMap(s, hasElement).leaflet.Some?
    ensures var e := EnsureMap(s, hasElement);
      EnsureMap(e.state, again) == e
  {
  }

  /** `getMap`: what `ensureMap` returns when it cannot create a map, and a live
      map always comes with its marker layer. */
  function GetMap(s: MapState): (m: Option<nat>)
    ensures m == EnsureMap(s, false).leaflet
    ensures Wf(s) && m.Some? ==> s.markerLayer.Some?
  {
    s.leaflet
  }

  /** `clearMarkers`: both layers are emptied where they exist; the map and the
      view stay. */
  function ClearMarkers(s: MapState): (r: MapState)
    ensures r.leaflet == s.leaflet && r.view == s.view && r.nextMap == s.nextMap
    ensures r.markerLayer.Some? <==> s.markerLayer.Some?
    ensures r.geoJsonLayer.Some? <==> s.geoJsonLayer.Some?
    ensures r.markerLayer.Some? ==> r.markerLayer.value == []
    ensures r.geoJsonLayer.Some? ==> r.geoJsonLayer.value == []
    ensures Wf(s) ==> Wf(r)
  {
    s.(markerLayer := if s.markerLayer.Some? then Some([]) else None,
       geoJsonLayer := if s.geoJsonLayer.Some? then Some([]) else None)
  }

  lemma ClearMarkersIdempotent(s: MapState)
    ensures ClearMarkers(ClearMarkers(s)) == ClearMarkers(s)
  {
  }

  /** `removeMap`: back to no map and no layers; nothing happens without a map. */
  function RemoveMap(s: MapState): (r: MapState)
    ensures s.leaflet.None? ==> r == s
    ensures s.leaflet.Some? ==>
              r.leaflet.None? && r.markerLayer.None? && r.geoJsonLayer.None? && r.nextMap == s.nextMap
    ensures Wf(s) ==> Wf(r) && r.markerLayer.None? && r.geoJsonLayer.None?
  {
    if s.leaflet.Some? then MapState(None, None, None, Unset, s.nextMap) else s
  }

  lemma RemoveMapIdempotent(s: MapState)
    ensures RemoveMap(RemoveMap(s)) == RemoveMap(s)
  {
  }

  /** A map created after a removal is a new one. */
  lemma RemoveThenEnsureIsFresh(s: MapState)
    requires Wf(s) && s.leaflet.Some?
    ensures var e := EnsureMap(RemoveMap(s), true);
      e.leaflet.Some? && e.leaflet != s.leaflet && e.state.markerLayer == Some([])
  {
  }

  /** The result of `addMarker`: the new state and the marker (or `null`). */
  datatype Added = Added(state: MapState, marker: Option<Marker>)

  /** `addMarker`: without a marker layer nothing happens and `null` is returned;
      otherwise exactly one marker is appended, with the popup bound only when its
      content is non-empty. */
  function AddMarker(s: MapState, at: LatLng, options: MarkerOptions, popupContent: string): (r: Added)
    ensures s.markerLayer.None? ==> r == Added(s, None)
    ensures s.markerLayer.Some? ==>
              && r.marker.Some?
              && r.marker.value.at == at && r.marker.value.options == options
              && (r.marker.value.popup.Some? <==> popupContent != [])
              && (r.marker.value.popup.Some? ==> r.marker.value.popup.value == popupContent)
              && r.state == s.(markerLayer := Some(s.markerLayer.value + [r.marker.value]))
    ensures Wf(s) ==> Wf(r.state)
  {
    if s.markerLayer.None? then Added(s, None)
    else
      var m := Marker(at, options, if popupContent != [] then Some(popupContent) else None);
      Added(s.(markerLayer := Some(s.markerLayer.value + [m])), Some(m))
  }

  /** Every coordinate of the features, in order. */
  function AllPoints(features: seq<Feature>): (ps: seq<LatLng>)
    ensures |features| > 0 ==> |ps| > 0
    decreases |features|
  {
    if features == [] then []
    else [features[0].first] + features[0].more + AllPoints(features[1..])
  }

  /** `addGeoJsonLayer`: nothing happens without a map; otherwise the GeoJSON layer
      holds exactly the new layer, whatever it held before, and the view is fitted
      to the data when it has features. */
  function AddGeoJsonLayer(s: MapState, data: seq<Feature>, style: nat): (r: MapState)
    ensures s.leaflet.None? ==> r == s
    ensures s.leaflet.Some? ==> r.geoJsonLayer == Some([GeoLayer(data, style)])
    ensures s.leaflet.Some? && |data| > 0 ==>
              r.view.Fitted? && forall p :: p in AllPoints(data) ==> InBox(p, r.view.box)
    ensures s.leaflet.Some? && data == [] ==> r.view == s.view
    ensures r.leaflet == s.leaflet && r.markerLayer == s.markerLayer
    ensures Wf(s) ==> Wf(r)
  {
    if s.leaflet.None? then s
    else
      var view := if |data| > 0 then Fitted(BoxOf(AllPoints(data)), 0) else s.view;
      s.(geoJsonLayer := Some([GeoLayer(data, style)]), view := view)
  }

  /** Adding twice keeps only the second layer. */
  lemma AddGeoJsonLayerReplaces(s: MapState, d1: seq<Feature>, st1: nat, d2: seq<Feature>, st2: nat)
    requires s.leaflet.Some?
    ensures AddGeoJsonLayer(AddGeoJsonLayer(s, d1, st1), d2, st2).geoJsonLayer
         == Some([GeoLayer(d2, st2)])
  {
  }

  /** `fitBounds` with its default padding of 30 pixels: nothing happens without a
      map or without points; otherwise the view holds every point. */
  function FitBounds(s: MapState, bounds: seq<LatLng>, padding: int): (r: MapState)
    ensures s.leaflet.None? || bounds == [] ==> r == s
    ensures s.leaflet.Some? && bounds != [] ==>
              && r == s.(view := r.view)
              && r.view.Fitted? && r.view.padding == padding
              && forall i :: 0 <= i < |bounds| ==> InBox(bounds[i], r.view.box)
  {
    if s.leaflet.Some? && |bounds| > 0 then s.(view := Fitted(BoxOf(bounds), padding)) else s
  }

  const DEFAULT_PADDING: int := 30

  /** Every operation keeps the lifecycle invariant, from the initial state on. */
  lemma LifecycleInvariant(s: MapState, hasElement: bool, at: LatLng, options: MarkerOptions,
                           popup: string, data: seq<Feature>, style: nat, bounds: seq<LatLng>)
    requires Wf(s)
    ensures Wf(INITIAL)
    ensures Wf(EnsureMap(s, hasElement).state)
    ensures Wf(ClearMarkers(s)) && Wf(RemoveMap(s))
    ensures Wf(AddMarker(s, at, options, popup).state)
    ensures Wf(AddGeoJsonLayer(s, data, style))
    ensures Wf(FitBounds(s, bounds, DEFAULT_PADDING))
  {
  }
}

=== FILE: router.dfy ===
/** The hash router of `docs/app.js`: `parseHash` reads `location.hash` into the
    view state, `updateHashFromState` writes it back. */
module Router {
  import opened Wrappers
  import opened Strings
  import opened UrlCoding

  datatype Page = App | About

  /** The global `state` object. */
  datatype State = State(page: Page, city: string, tool: string, window: string)

  const CITIES: seq<string> := ["kaunas", "vilnius"]
  /** The keys of `TOOLS`. */
  const TOOL_KEYS: seq<string> := ["heatmap", "frequency"]
  const DEFAULT_WINDOWS: seq<string> := ["16_18"]

  const INITIAL: State := State(App, "kaunas", "frequency", "16_18")

  /** The initial state is registered, so a page opened without a hash keeps it. */
  lemma InitialKeptByEmptyHash()
    ensures Registered(INITIAL)
    ensures ParseHash("", INITIAL) == INITIAL
  {
    EmptyHashKeepsPrior(INITIAL);
  }

  /** What the validation step guarantees. */
  predicate Registered(s: State) {
    s.city in CITIES && s.tool in TOOL_KEYS && s.window in DEFAULT_WINDOWS
  }

  /** The `// Validate` step: an unknown city falls back to the first city, an
      unknown tool to `heatmap` and an unknown window to the first window. */
  function Validate(s: State): (r: State)
    ensures Registered(r) && r.page == s.page
    ensures s.city in CITIES ==> r.city == s.city
    ensures s.tool in TOOL_KEYS ==> r.tool == s.tool
    ensures s.window in DEFAULT_WINDOWS ==> r.window == s.window
    ensures s.city !in CITIES ==> r.city == "kaunas"
    ensures s.tool !in TOOL_KEYS ==> r.tool == "heatmap"
    ensures s.window !in DEFAULT_WINDOWS ==> r.window == "16_18"
    ensures Registered(s) ==> r == s
  {
    State(s.page,
          if s.city in CITIES then s.city else CITIES[0],
          if s.tool in TOOL_KEYS then s.tool else "heatmap",
          if s.window in DEFAULT_WINDOWS then s.window else DEFAULT_WINDOWS[0])
  }

  /** `path.replace(/^#\/?/, "")`. */
  function StripHashPrefix(p: string): string {
    if StartsWith(p, "#/") then p[2..]
    else if StartsWith(p, "#") then p[1..]
    else p
  }

  /** `.filter(Boolean)` on strings: the empty ones are dropped. */
  function NonEmpty(parts: seq<string>): (r: seq<string>)
    ensures forall x :: x in r <==> x in parts && x != []
    decreases |parts|
  {
    if parts == [] then []
    else (if parts[0] == [] then [] else [parts[0]]) + NonEmpty(parts[1..])
  }

  /** `location.hash || "#/"`. */
  function Raw(hash: string): string {
    if hash == [] then "#/" else hash
  }

  /** The non-empty path segments of a hash. */
  function Segments(hash: string): seq<string> {
    NonEmpty(Split(StripHashPrefix(Split(Raw(hash), '?')[0]), '/'))
  }

  /** The `window` query parameter when it is present and non-empty (an empty
      value is falsy and ignored). Only the text between the first and the
      second `?` is the query string. */
  function WindowParam(hash: string): Option<string> {
    var pieces := Split(Raw(hash), '?');
    var query := if |pieces| >= 2 then pieces[1] else "";
    match QueryGet(query, "window")
    case Some(v) => if v == [] then None else Some(v)
    case None => None
  }

  /** `parseHash`. A first segment `about` changes only the page. Otherwise a
      missing segment or window parameter keeps the prior value, and the result
      is validated against the registries. */
  function ParseHash(hash: string, prior: State): (r: State)
    ensures r.page == About <==> |Segments(hash)| >= 1 && Segments(hash)[0] == "about"
    ensures r.page == About ==> r == prior.(page := About)
    ensures r.page == App ==> Registered(r)
    ensures r.page == App && |Segments(hash)| >= 1 ==>
              r.city == (if Segments(hash)[0] in CITIES then Segments(hash)[0] else "kaunas")
    ensures r.page == App && |Segments(hash)| >= 2 ==>
              r.tool == (if Segments(hash)[1] in TOOL_KEYS then Segments(hash)[1] else "heatmap")
    ensures r.page == App && WindowParam(hash).Some? ==>
              r.window == (if WindowParam(hash).value in DEFAULT_WINDOWS then WindowParam(hash).value else "16_18")
  {
    var segs := Segments(hash);
    if |segs| >= 1 && segs[0] == "about" then prior.(page := About)
    else
      var city := if |segs| >= 1 then segs[0] else prior.city;
      var tool := if |segs| >= 2 then segs[1] else prior.tool;
      var window := WindowParam(hash).GetOr(prior.window);
      Validate(State(App, city, tool, window))
  }

  /** `updateHashFromState`. */
  function HashOf(s: State): string {
    if s.page == About then "#/about"
    else
      var q := if s.tool == "frequency" then "?window=" + EncodeURIComponent(s.window) else "";
      "#/" + s.city + "/" + s.tool + q
  }

  /** Missing path segments and a missing window parameter keep the prior state,
      which is then validated like any other. */
  lemma MissingSegmentsKeepPrior(hash: string, prior: State)
    requires var segs := Segments(hash); !(|segs| >= 1 && segs[0] == "about")
    ensures var r := ParseHash(hash, prior);
      && (|Segments(hash)| == 0 ==> r.city == Validate(prior).city)
      && (|Segments(hash)| <= 1 ==> r.tool == Validate(prior).tool)
      && (WindowParam(hash).None? ==> r.window == Validate(prior).window)
  {
  }

  /** The empty hash has no segment and no query: the prior state is kept. */
  lemma EmptyHashKeepsPrior(prior: State)
    ensures ParseHash("", prior) == Validate(prior.(page := App))
  {
    assert Split("#/", '?') == ["#/"] by { SplitWithoutSeparator("#/", '?'); }
    assert StripHashPrefix("#/") == "";
    assert Split("", '/') == [""];
    assert Split("", '&') == [""];
    assert NonEmpty([""]) == [] by { assert [""][1..] == []; }
  }

  /** A hash of one segment sets the city and keeps the prior tool and window. */
  lemma OneSegmentKeepsTool(c: string, prior: State)
    requires c != [] && c != "about" && '?' !in c && '/' !in c
    ensures ParseHash("#/" + c, prior) == Validate(prior.(page := App, city := c))
  {
    var h := "#/" + c;
    PathAndQueryPlain(h);
    assert StartsWith(h, "#/") && h[2..] == c;
    SplitWithoutSeparator(c, '/');
    assert NonEmpty([c]) == [c] by { assert [c][1..] == []; }
  }

  /** A non-empty hash without `?` is all path and has no query. */
  lemma PathAndQueryPlain(h: string)
    requires h != [] && '?' !in h
    ensures Split(Raw(h), '?') == [h]
    ensures WindowParam(h).None?
  {
    SplitWithoutSeparator(h, '?');
    assert Split("", '&') == [""];
    assert SearchParams([""]) == [] by { assert [""][1..] == []; }
  }

  /** A hash `prefix?rest` whose prefix has no `?`. */
  lemma PathAndQuerySplit(prefix: string, rest: string)
    requires prefix != [] && '?' !in prefix && '?' !in rest
    ensures Split(Raw(prefix + "?" + rest), '?') == [prefix, rest]
  {
    SplitAtFirst(prefix, rest, '?');
    SplitWithoutSeparator(rest, '?');
  }

  /** The path `#/city/tool` has the segments city and tool. */
  lemma TwoSegments(city: string, tool: string)
    requires city != [] && tool != [] && '/' !in city && '/' !in tool
    ensures NonEmpty(Split(StripHashPrefix("#/" + city + "/" + tool), '/')) == [city, tool]
  {
    var path := "#/" + city + "/" + tool;
    assert StartsWith(path, "#/");
    assert path[2..] == city + ['/'] + tool;
    SplitAtFirst(city, tool, '/');
    SplitWithoutSeparator(tool, '/');
    assert NonEmpty([tool]) == [tool] by { assert [tool][1..] == []; }
    assert NonEmpty([city, tool]) == [city] + NonEmpty([tool]) by {
      assert [city, tool][1..] == [tool];
    }
  }

  /** Parsing twice with the same hash changes nothing more. */
  lemma ParseHashIdempotent(hash: string, prior: State)
    ensures ParseHash(hash, ParseHash(hash, prior)) == ParseHash(hash, prior)
  {
  }

  /** The hash carries a query exactly when the tool is `frequency`. */
  lemma HashHasQueryIffFrequency(s: State)
    requires s.page == App && Registered(s)
    ensures '?' in HashOf(s) <==> s.tool == "frequency"
  {
    var prefix := "#/" + s.city + "/" + s.tool;
    NoQueryInPrefix(s);
    if s.tool == "frequency" {
      assert HashOf(s)[|prefix|] == '?';
    } else {
      assert HashOf(s) == prefix;
    }
  }

  /** Registered names hold no `/`, `?`, `&`, `=` or `#`. */
  lemma RegisteredNamesPlain(s: State)
    requires Registered(s)
    ensures forall i :: 0 <= i < |s.city| ==> !Delimiter(s.city[i])
    ensures forall i :: 0 <= i < |s.tool| ==> !Delimiter(s.tool[i])
    ensures s.city != [] && s.tool != [] && s.window != []
  {
  }

  lemma NoQueryInPrefix(s: State)
    requires Registered(s)
    ensures '?' !in "#/" + s.city + "/" + s.tool
    ensures '/' !in s.city && '/' !in s.tool
  {
    RegisteredNamesPlain(s);
    var prefix := "#/" + s.city + "/" + s.tool;
    forall i | 0 <= i < |prefix| ensures prefix[i] != '?' {
      if 2 <= i < 2 + |s.city| {
        assert prefix[i] == s.city[i - 2];
      } else if i > 2 + |s.city| {
        assert prefix[i] == s.tool[i - 3 - |s.city|];
      }
    }
  }

  /** The segments of a written hash are the city and the tool. */
  lemma SegmentsOfHash(s: State)
    requires s.page == App && Registered(s)
    ensures Segments(HashOf(s)) == [s.city, s.tool]
  {
    PathOfHash(s);
    NoQueryInPrefix(s);
    RegisteredNamesPlain(s);
    TwoSegments(s.city, s.tool);
  }

  /** The path of a written hash, before any `?`, is `#/city/tool`. */
  lemma PathOfHash(s: State)
    requires s.page == App && Registered(s)
    ensures Split(Raw(HashOf(s)), '?')[0] == "#/" + s.city + "/" + s.tool
  {
    NoQueryInPrefix(s);
    PathOfAppHash(s.city, s.tool, s.window);
  }

  lemma PathOfAppHash(city: string, tool: string, window: string)
    requires '?' !in "#/" + city + "/" + tool
    ensures Split(Raw(HashOf(State(App, city, tool, window))), '?')[0] == "#/" + city + "/" + tool
  {
    var prefix := "#/" + city + "/" + tool;
    var h := HashOf(State(App, city, tool, window));
    if tool == "frequency" {
      var rest := "window=" + EncodeURIComponent(window);
      QueryHasNoQuestionMark(window);
      assert h == prefix + "?" + rest;
      PathAndQuerySplit(prefix, rest);
    } else {
      assert h == prefix;
      PathAndQueryPlain(prefix);
    }
  }

  lemma QueryHasNoQuestionMark(w: string)
    ensures '?' !in "window=" + EncodeURIComponent(w)
  {
    var enc := EncodeURIComponent(w);
    var rest := "window=" + enc;
    EncodeHasNoDelimiter(w);
    forall i | 0 <= i < |rest| ensures rest[i] != '?' {
      if i >= 7 { assert rest[i] == enc[i - 7]; }
    }
  }

  /** The query `window=<encoded w>` after a plain path yields `w`. */
  lemma WindowParamOfQuery(prefix: string, w: string)
    requires prefix != [] && '?' !in prefix && w != []
    ensures WindowParam(prefix + "?window=" + EncodeURIComponent(w)) == Some(w)
  {
    var rest := "window=" + EncodeURIComponent(w);
    QueryHasNoQuestionMark(w);
    assert prefix + "?window=" + EncodeURIComponent(w) == prefix + "?" + rest;
    PathAndQuerySplit(prefix, rest);
    assert "window" + "=" + EncodeURIComponent(w) == rest;
    QueryGetSingle("window", w);
    assert QueryGet(rest, "window") == Some(w);
  }

  /** The window parameter of a written hash: the window itself for the
      frequency tool, none for the heatmap. */
  lemma WindowParamOfHash(s: State)
    requires s.page == App && Registered(s)
    ensures WindowParam(HashOf(s)) == if s.tool == "frequency" then Some(s.window) else None
  {
    var prefix := "#/" + s.city + "/" + s.tool;
    NoQueryInPrefix(s);
    RegisteredNamesPlain(s);
    if s.tool == "frequency" {
      assert HashOf(s) == prefix + "?window=" + EncodeURIComponent(s.window);
      WindowParamOfQuery(prefix, s.window);
    } else {
      assert HashOf(s) == prefix;
      PathAndQueryPlain(prefix);
    }
  }

  /** Reading back a written hash restores the state; for the heatmap, whose hash
      has no window, the prior window is kept (validated). */
  lemma ParseHashOfHash(s: State, prior: State)
    requires s.page == App && Registered(s)
    ensures ParseHash(HashOf(s), prior)
         == s.(window := if s.tool == "frequency" then s.window else Validate(prior).window)
  {
    SegmentsOfHash(s);
    WindowParamOfHash(s);
  }

  /** The round trip: every state the router can hold is restored from its own hash. */
  lemma RoundTrip(s: State)
    requires s.page == About || Registered(s)
    ensures ParseHash(HashOf(s), s) == s
  {
    if s.page == About {
      var h := "#/about";
      assert '?' !in h;
      SplitWithoutSeparator(h, '?');
      assert StartsWith(h, "#/") && h[2..] == "about";
      assert '/' !in "about";
      SplitWithoutSeparator("about", '/');
      assert NonEmpty(["about"]) == ["about"] by { assert ["about"][1..] == []; }
    } else {
      ParseHashOfHash(s, s);
    }
  }
}

=== FILE: scan_data.dfy ===
/** `scripts/scan_data.py`: the city manifest is the sorted list of the visible
    sub-directories of `docs/data/`. */
module ScanData {
  import opened Wrappers
  import opened Strings
  import opened Sorting

  /** One name returned by `os.listdir`, with whether `os.path.isdir` holds for it. */
  datatype Entry = Entry(name: string, isDir: bool)

  /** Python's `<=` on strings: code points compared left to right, a proper
      prefix sorting first. */
  predicate StrLe(a: string, b: string)
    decreases |a|
  {
    a == [] || (b != [] && (a[0] < b[0] || (a[0] == b[0] && StrLe(a[1..], b[1..]))))
  }

  lemma {:induction false} StrLeTotal(a: string, b: string)
    ensures StrLe(a, b) || StrLe(b, a)
    decreases |a|
  {
    if a != [] && b != [] && a[0] == b[0] {
      StrLeTotal(a[1..], b[1..]);
    }
  }

  lemma {:induction false} StrLeTransitive(a: string, b: string, c: string)
    requires StrLe(a, b) && StrLe(b, c)
    ensures StrLe(a, c)
    decreases |a|
  {
    if a != [] && a[0] == b[0] && b[0] == c[0] {
      StrLeTransitive(a[1..], b[1..], c[1..]);
    }
  }

  lemma {:induction false} StrLeAntisymmetric(a: string, b: string)
    requires StrLe(a, b) && StrLe(b, a)
    ensures a == b
    decreases |a|
  {
    if a != [] {
      StrLeAntisymmetric(a[1..], b[1..]);
      assert a == [a[0]] + a[1..] && b == [b[0]] + b[1..];
    }
  }

  lemma StrLeTotalPreorder()
    ensures TotalPreorder(StrLe)
  {
    forall a, b ensures StrLe(a, b) || StrLe(b, a) {
      StrLeTotal(a, b);
    }
    forall a, b, c | StrLe(a, b) && StrLe(b, c) ensures StrLe(a, c) {
      StrLeTransitive(a, b, c);
    }
  }

  /** The list comprehension's condition. */
  predicate IsCityDir(e: Entry) {
    e.isDir && !StartsWith(e.name, ".")
  }

  /** Some visible directory of the listing is called `n`. */
  ghost predicate ListedCity(entries: seq<Entry>, n: string) {
    exists e :: e in entries && IsCityDir(e) && e.name == n
  }

  function CityNames(entries: seq<Entry>): (names: seq<string>)
    ensures forall n :: n in names <==> ListedCity(entries, n)
    decreases |entries|
  {
    if entries == [] then []
    else
      assert forall e :: e in entries ==> e == entries[0] || e in entries[1..];
      (if IsCityDir(entries[0]) then [entries[0].name] else []) + CityNames(entries[1..])
  }

  /** `scan_cities`: `None` when `docs/data/` does not exist (nothing is written);
      otherwise the manifest, holding exactly the visible directories, each as
      often as listed, in ascending order. */
  function ScanCities(listing: Option<seq<Entry>>): (manifest: Option<seq<string>>)
    ensures listing.None? <==> manifest.None?
    ensures manifest.Some? ==> multiset(manifest.value) == multiset(CityNames(listing.value))
    ensures manifest.Some? ==> forall n :: n in manifest.value <==> ListedCity(listing.value, n)
    ensures manifest.Some? ==> forall i, j :: 0 <= i < j < |manifest.value| ==>
              StrLe(manifest.value[i], manifest.value[j])
  {
    match listing
    case None => None
    case Some(entries) =>
      var names := CityNames(entries);
      StrLeTotalPreorder();
      var sorted := SortBy(names, StrLe);
      assert forall n :: n in sorted <==> n in multiset(names);
      Some(sorted)
  }

  /** No manifest entry is hidden or a plain file. */
  lemma ManifestVisibleDirsOnly(listing: seq<Entry>)
    ensures var m := ScanCities(Some(listing)).value;
      forall i :: 0 <= i < |m| ==>
        !StartsWith(m[i], ".") && exists e :: e in listing && e.isDir && e.name == m[i]
  {
    var m := ScanCities(Some(listing)).value;
    forall i | 0 <= i < |m|
      ensures !StartsWith(m[i], ".") && exists e :: e in listing && e.isDir && e.name == m[i]
    {
      assert m[i] in m;
      assert ListedCity(listing, m[i]);
    }
  }

  lemma {:induction false} AtMostOnceDistinct(s: seq<string>)
    requires forall n :: multiset(s)[n] <= 1
    ensures forall i, j :: 0 <= i < j < |s| ==> s[i] != s[j]
    decreases |s|
  {
    if s != [] {
      assert s == [s[0]] + s[1..];
      assert multiset(s) == multiset{s[0]} + multiset(s[1..]);
      forall n ensures multiset(s[1..])[n] <= 1 {
        assert multiset(s)[n] == (if n == s[0] then 1 else 0) + multiset(s[1..])[n];
      }
      AtMostOnceDistinct(s[1..]);
      assert multiset(s[1..])[s[0]] == 0;
      forall j | 0 < j < |s| ensures s[0] != s[j] {
        assert s[j] == s[1..][j - 1];
        assert s[j] in multiset(s[1..]);
      }
    }
  }

  lemma {:induction false} CityNamesDistinct(listing: seq<Entry>)
    requires forall i, j :: 0 <= i < j < |listing| ==> listing[i].name != listing[j].name
    ensures forall n :: multiset(CityNames(listing))[n] <= 1
    decreases |listing|
  {
    if listing != [] {
      var rest := listing[1..];
      assert forall i, j :: 0 <= i < j < |rest| ==> rest[i].name != rest[j].name by {
        forall i, j | 0 <= i < j < |rest| ensures rest[i].name != rest[j].name {
          assert rest[i] == listing[i + 1] && rest[j] == listing[j + 1];
        }
      }
      CityNamesDistinct(rest);
      var n0 := listing[0].name;
      assert n0 !in CityNames(rest);
      var head := if IsCityDir(listing[0]) then [n0] else [];
      assert CityNames(listing) == head + CityNames(rest);
      assert multiset(CityNames(listing)) == multiset(head) + multiset(CityNames(rest));
    }
  }

  /** `os.listdir` never repeats a name, so the manifest is strictly ascending. */
  lemma ManifestStrictlyAscending(listing: seq<Entry>)
    requires forall i, j :: 0 <= i < j < |listing| ==> listing[i].name != listing[j].name
    ensures var m := ScanCities(Some(listing)).value;
      forall i, j :: 0 <= i < j < |m| ==> StrLe(m[i], m[j]) && m[i] != m[j]
  {
    var m := ScanCities(Some(listing)).value;
    CityNamesDistinct(listing);
    AtMostOnceDistinct(m);
  }
}

=== FILE: sorting.dfy ===
/** A stable sort by a comparison, the model of Python's `sorted(xs, key=k)` and
    `list.sort(key=k)`: the comparison `le(a, b)` stands for `k(a) <= k(b)`. Python
    guarantees that these sorts are stable, so the contract says so. */
module Sorting {

  /** `le` orders every pair of values and is transitive: the order on keys. */
  ghost predicate TotalPreorder<T(!new)>(le: (T, T) -> bool) {
    && (forall a, b :: le(a, b) || le(b, a))
    && (forall a, b, c :: le(a, b) && le(b, c) ==> le(a, c))
  }

  predicate SortedBy<T>(s: seq<T>, le: (T, T) -> bool) {
    forall i, j :: 0 <= i < j < |s| ==> le(s[i], s[j])
  }

  /** `a` and `b` have equal keys. */
  predicate Equivalent<T>(le: (T, T) -> bool, a: T, b: T) {
    le(a, b) && le(b, a)
  }

  /** The elements of `s` whose key equals the key of `y`, in their order in `s`. */
  function Ties<T>(s: seq<T>, le: (T, T) -> bool, y: T): (r: seq<T>)
    ensures |r| <= |s|
    decreases |s|
  {
    if s == [] then []
    else (if Equivalent(le, s[0], y) then [s[0]] else []) + Ties(s[1..], le, y)
  }

  /** Puts `x` in front of the first element whose key is not smaller than its own. */
  function Insert<T(!new)>(x: T, s: seq<T>, le: (T, T) -> bool): (r: seq<T>)
    requires TotalPreorder(le)
    ensures multiset(r) == multiset(s) + multiset{x}
    ensures |r| == |s| + 1
    ensures SortedBy(s, le) ==> SortedBy(r, le)
    decreases |s|, 0
  {
    if s == [] || le(x, s[0]) then [x] + s
    else
      var rest := Insert(x, s[1..], le);
      assert s == [s[0]] + s[1..];
      if SortedBy(s, le) then
        InsertAbove(x, s[1..], le, s[0]);
        [s[0]] + rest
      else [s[0]] + rest
  }

  /** A lower bound of `x` and of every element of `s` bounds the insertion too. */
  lemma {:induction false} InsertAbove<T(!new)>(x: T, s: seq<T>, le: (T, T) -> bool, b: T)
    requires TotalPreorder(le)
    requires le(b, x) && forall k :: 0 <= k < |s| ==> le(b, s[k])
    ensures forall k :: 0 <= k < |Insert(x, s, le)| ==> le(b, Insert(x, s, le)[k])
    decreases |s|, 1
  {
    if s != [] && !le(x, s[0]) {
      InsertAbove(x, s[1..], le, b);
      assert Insert(x, s, le) == [s[0]] + Insert(x, s[1..], le);
    }
  }

  /** Insertion sort: each element goes in front of the already sorted rest. */
  function SortBy<T(!new)>(s: seq<T>, le: (T, T) -> bool): (r: seq<T>)
    requires TotalPreorder(le)
    ensures multiset(r) == multiset(s)
    ensures |r| == |s|
    ensures SortedBy(r, le)
    decreases |s|
  {
    if s == [] then []
    else
      assert s == [s[0]] + s[1..];
      Insert(s[0], SortBy(s[1..], le), le)
  }

  /** Inserting `x` adds it in front of its ties: every element the insertion
      passes has a strictly smaller key. */
  lemma {:induction false} InsertTies<T(!new)>(x: T, s: seq<T>, le: (T, T) -> bool, y: T)
    requires TotalPreorder(le)
    ensures Ties(Insert(x, s, le), le, y) == Ties([x], le, y) + Ties(s, le, y)
    decreases |s|
  {
    if s == [] || le(x, s[0]) {
      assert ([x] + s)[1..] == s;
    } else {
      InsertTies(x, s[1..], le, y);
      var r := Insert(x, s, le);
      assert r == [s[0]] + Insert(x, s[1..], le);
      assert r[0] == s[0] && r[1..] == Insert(x, s[1..], le);
      var h := if Equivalent(le, s[0], y) then [s[0]] else [];
      var tx := Ties([x], le, y);
      assert Ties(r, le, y) == h + (tx + Ties(s[1..], le, y));
      assert Ties(s, le, y) == h + Ties(s[1..], le, y);
      NotBothTies(le, s[0], x, y);
    }
  }

  /** Two elements with different keys cannot both tie with `y`. */
  lemma NotBothTies<T(!new)>(le: (T, T) -> bool, a: T, x: T, y: T)
    requires TotalPreorder(le) && !le(x, a)
    ensures !Equivalent(le, a, y) || !Equivalent(le, x, y)
  {
  }

  /** Stability: among elements with equal keys, the sort keeps their input order. */
  lemma {:induction false} SortByStable<T(!new)>(s: seq<T>, le: (T, T) -> bool, y: T)
    requires TotalPreorder(le)
    ensures Ties(SortBy(s, le), le, y) == Ties(s, le, y)
    decreases |s|
  {
    if s != [] {
      SortByStable(s[1..], le, y);
      InsertTies(s[0], SortBy(s[1..], le), le, y);
    }
  }
}

=== FILE: stop_analysis.dfy ===
/** The stop-frequency pipeline of `scripts/stop_analysis.py`: group the arrival
    times of `stop_times.txt` by stop, average the gaps in the 16:00-18:00 window,
    attach names and coordinates from `stops.txt`, keep the complete stops with a
    positive gap, sort them by gap and build the JSON payload. */
module StopAnalysis {
  import opened Wrappers
  import opened Strings
  import opened Sorting
  import opened TimeUtils
  import opened StopUtils
  import opened Grouping

  /** The analysis window, in seconds after midnight: 16:00 to 18:00. */
  const START: int := 16 * 3600
  const END: int := 18 * 3600

  /** One row of `stops.txt`, with the coordinates already read as numbers. */
  datatype StopRow = StopRow(stopId: string, stopName: string, stopLat: real, stopLon: real)

  /** The script stops with an uncaught exception when an arrival time in
      `stop_times.txt` is not `H:M:S`. */
  datatype AnalysisError = MalformedArrivalTime

  /** The JSON document the script writes. */
  datatype Payload = Payload(
    city: string,
    startSec: int,
    endSec: int,
    sortedBy: string,
    stops: seq<Dict>)

  /** The payload and the path, relative to the repository root, it is written to. */
  datatype Output = Output(payload: Payload, path: string)

  /** The gap of one stop: `avg_gap_start_to_end(arrivals, START, END)`. */
  function StopFrequency(g: Group): Option<int> {
    match ParseAll(g.arrivals)
    case Some(times) => Some(AvgGapStartToEnd(times, START, END))
    case None => None
  }

  /** The second loop of the first `with` block: one stop object per dict entry,
      in dict order, with its gap set. */
  function StopsWithFrequencies(gs: seq<Group>): (r: Result<seq<Stop>, AnalysisError>)
    ensures r.Success? <==> forall k :: 0 <= k < |gs| ==> StopFrequency(gs[k]).Some?
    ensures r.Success? ==> |r.value| == |gs|
    ensures r.Success? ==> forall k :: 0 <= k < |gs| ==>
              r.value[k] == NewStop(gs[k].id).(frequency := StopFrequency(gs[k]).value)
    decreases |gs|
  {
    if gs == [] then Success([])
    else
      match (StopFrequency(gs[0]), StopsWithFrequencies(gs[1..]))
      case (Some(f), Success(rest)) => Success([NewStop(gs[0].id).(frequency := f)] + rest)
      case (None, _) => Failure(MalformedArrivalTime)
      case (_, Failure(e)) =>
        assert forall k :: 0 <= k < |gs[1..]| ==> gs[1..][k] == gs[k + 1];
        Failure(e)
  }

  /** Name and coordinates of a `stops.txt` row, set on a stop. */
  function Attached(s: Stop, row: StopRow): Stop {
    s.(name := Some(row.stopName), lat := Some(row.stopLat), lon := Some(row.stopLon))
  }

  /** One row of `stops.txt`: `if current_id in stop_id_to_stop`, the stop with that
      id takes the row's name and coordinates. */
  function AttachRow(stops: seq<Stop>, row: StopRow): (r: seq<Stop>)
    ensures |r| == |stops|
  {
    seq(|stops|, k requires 0 <= k < |stops| =>
      if stops[k].id == row.stopId then Attached(stops[k], row) else stops[k])
  }

  /** The last row of `stops.txt` for `id`, if any. */
  function LastRowFor(rows: seq<StopRow>, id: string): (r: Option<StopRow>)
    ensures r.Some? ==> r.value.stopId == id && r.value in rows
    decreases |rows|
  {
    if rows == [] then None
    else if rows[|rows| - 1].stopId == id then Some(rows[|rows| - 1])
    else LastRowFor(rows[..|rows| - 1], id)
  }

  /** The whole `stops.txt` loop: each stop ends with the name and coordinates
      of the last row for its id, and a stop without a row is unchanged. */
  function AttachAll(stops: seq<Stop>, rows: seq<StopRow>): (r: seq<Stop>)
    ensures |r| == |stops|
    ensures forall k :: 0 <= k < |stops| ==>
              r[k] == match LastRowFor(rows, stops[k].id)
                      case Some(row) => Attached(stops[k], row)
                      case None => stops[k]
    decreases |rows|
  {
    if rows == [] then stops
    else AttachRow(AttachAll(stops, rows[..|rows| - 1]), rows[|rows| - 1])
  }

  /** A `stops.txt` row whose id never appeared in `stop_times.txt` changes nothing,
      wherever it stands in the file. */
  lemma UnknownStopRowIgnored(stops: seq<Stop>, before: seq<StopRow>, row: StopRow, after: seq<StopRow>)
    requires forall k :: 0 <= k < |stops| ==> stops[k].id != row.stopId
    ensures AttachAll(stops, before + [row] + after) == AttachAll(stops, before + after)
  {
    forall k | 0 <= k < |stops|
      ensures LastRowFor(before + [row] + after, stops[k].id) == LastRowFor(before + after, stops[k].id)
    {
      LastRowForSkips(before, row, after, stops[k].id);
    }
  }

  lemma {:induction false} LastRowForSkips(before: seq<StopRow>, row: StopRow, after: seq<StopRow>, id: string)
    requires row.stopId != id
    ensures LastRowFor(before + [row] + after, id) == LastRowFor(before + after, id)
    decreases |after|
  {
    if after == [] {
      assert before + [row] + after == before + [row];
      assert (before + [row])[..|before|] == before;
      assert before + after == before;
    } else {
      var a, b := before + [row] + after, before + after;
      assert a[..|a| - 1] == before + [row] + after[..|after| - 1];
      assert b[..|b| - 1] == before + after[..|after| - 1];
      LastRowForSkips(before, row, after[..|after| - 1], id);
    }
  }

  /** The filter of `valid_stops`. */
  predicate IsValid(s: Stop) {
    s.name.Some? && s.lat.Some? && s.lon.Some? && s.frequency > 0
  }

  /** A stop as created carries no name and no gap, so it is never valid. */
  lemma NewStopNotValid(id: string)
    ensures !IsValid(NewStop(id))
  {
  }

  function FilterValid(stops: seq<Stop>): (r: seq<Stop>)
    ensures forall s :: s in r <==> s in stops && IsValid(s)
    decreases |stops|
  {
    if stops == [] then []
    else (if IsValid(stops[0]) then [stops[0]] else []) + FilterValid(stops[1..])
  }

  /** The comprehension keeps the stops in their order: filtering distributes over
      concatenation. */
  lemma {:induction false} FilterValidAppend(a: seq<Stop>, b: seq<Stop>)
    ensures FilterValid(a + b) == FilterValid(a) + FilterValid(b)
    decreases |a|
  {
    if a == [] {
      assert a + b == b;
    } else {
      assert (a + b)[1..] == a[1..] + b;
      FilterValidAppend(a[1..], b);
    }
  }

  /** Stops that are all valid pass the filter unchanged. */
  lemma {:induction false} FilterValidKeepsValid(stops: seq<Stop>)
    requires forall i :: 0 <= i < |stops| ==> IsValid(stops[i])
    ensures FilterValid(stops) == stops
    decreases |stops|
  {
    if stops != [] {
      FilterValidKeepsValid(stops[1..]);
    }
  }

  /** The sort key `lambda s: s.frequency`. */
  predicate FrequencyLe(a: Stop, b: Stop) {
    a.frequency <= b.frequency
  }

  lemma FrequencyLeTotalPreorder()
    ensures TotalPreorder(FrequencyLe)
  {
  }

  /** `valid_stops` after `valid_stops.sort(key=lambda s: s.frequency)`: exactly
      the valid stops, each as often as in the input, by non-decreasing gap. */
  function ValidStops(stops: seq<Stop>): (r: seq<Stop>)
    ensures forall s :: s in r <==> s in stops && IsValid(s)
    ensures multiset(r) == multiset(FilterValid(stops))
    ensures forall i, j :: 0 <= i < j < |r| ==> r[i].frequency <= r[j].frequency
  {
    FrequencyLeTotalPreorder();
    var r := SortBy(FilterValid(stops), FrequencyLe);
    assert forall s :: s in r <==> s in multiset(r);
    r
  }

  /** The sort is stable: stops with equal gaps keep their dict order. */
  lemma ValidStopsStable(stops: seq<Stop>, y: Stop)
    ensures Ties(ValidStops(stops), FrequencyLe, y) == Ties(FilterValid(stops), FrequencyLe, y)
  {
    FrequencyLeTotalPreorder();
    SortByStable(FilterValid(stops), FrequencyLe, y);
  }

  /** `f"frequency_{START//3600}_{END//3600}.json"`. */
  function OutputFileName(): (name: string)
    ensures name == "frequency_16_18.json"
  {
    assert NatToString(START / 3600) == "16" && NatToString(END / 3600) == "18";
    "frequency_" + NatToString(START / 3600) + "_" + NatToString(END / 3600) + ".json"
  }

  /** `docs/data/<city>/frequency_16_18.json`: there is no `frequencies` directory. */
  function OutputPath(city: string): string {
    "docs/data/" + city + "/" + OutputFileName()
  }

  lemma OutputPathIs(city: string)
    ensures OutputPath(city) == "docs/data/" + city + "/frequency_16_18.json"
  {
  }

  function ToDicts(stops: seq<Stop>): (ds: seq<Dict>)
    ensures |ds| == |stops|
    ensures forall i :: 0 <= i < |stops| ==> ds[i] == ToDict(stops[i])
  {
    seq(|stops|, i requires 0 <= i < |stops| => ToDict(stops[i]))
  }

  /** The payload: the window in seconds and the stops in the given order, each
      of which reads back as the stop it was written from. */
  function BuildPayload(city: string, stops: seq<Stop>): (p: Payload)
    ensures p.city == city && p.startSec == 57600 && p.endSec == 64800
    ensures p.sortedBy == "avg_gap_sec_asc"
    ensures |p.stops| == |stops|
    ensures forall i :: 0 <= i < |stops| ==> FromDict(p.stops[i]) == Some(stops[i])
  {
    forall s | s in stops ensures FromDict(ToDict(s)) == Some(s) {
      ToDictRoundTrip(s);
    }
    Payload(city, START, END, "avg_gap_sec_asc", ToDicts(stops))
  }

  /** The whole script for one city, from the rows of its two GTFS files to the
      JSON file it writes. */
  function Analyze(city: string, stopTimes: seq<StopTimeRow>, stopRows: seq<StopRow>)
    : Result<Output, AnalysisError>
  {
    match StopsWithFrequencies(GroupArrivals(stopTimes))
    case Failure(e) => Failure(e)
    case Success(stops) =>
      var valid := ValidStops(AttachAll(stops, stopRows));
      Success(Output(BuildPayload(city, valid), OutputPath(city)))
  }

  /** The script fails exactly when some arrival time is malformed. */
  lemma AnalyzeFailsOnMalformedTime(city: string, stopTimes: seq<StopTimeRow>, stopRows: seq<StopRow>)
    ensures Analyze(city, stopTimes, stopRows).Failure?
        <==> exists i :: 0 <= i < |stopTimes| && ParseTime(stopTimes[i].arrivalTime).None?
  {
    if exists i :: 0 <= i < |stopTimes| && ParseTime(stopTimes[i].arrivalTime).None? {
      var i :| 0 <= i < |stopTimes| && ParseTime(stopTimes[i].arrivalTime).None?;
      MalformedTimeFails(stopTimes, i);
    } else {
      WellFormedTimesSucceed(stopTimes);
    }
  }

  /** A malformed arrival time spoils the gap of its stop's group. */
  lemma MalformedTimeFails(stopTimes: seq<StopTimeRow>, i: nat)
    requires i < |stopTimes| && ParseTime(stopTimes[i].arrivalTime).None?
    ensures StopsWithFrequencies(GroupArrivals(stopTimes)).Failure?
  {
    var gs := GroupArrivals(stopTimes);
    var id := stopTimes[i].stopId;
    assert id in RowIds(stopTimes);
    var k :| 0 <= k < |gs| && Ids(gs)[k] == id;
    MalformedArrivalSpoils(stopTimes, i);
    assert gs[k].arrivals == ArrivalsOf(stopTimes, id);
    assert StopFrequency(gs[k]).None?;
  }

  /** The arrival times of a stop with a malformed one do not parse. */
  lemma MalformedArrivalSpoils(stopTimes: seq<StopTimeRow>, i: nat)
    requires i < |stopTimes| && ParseTime(stopTimes[i].arrivalTime).None?
    ensures ParseAll(ArrivalsOf(stopTimes, stopTimes[i].stopId)).None?
  {
    var arrivals := ArrivalsOf(stopTimes, stopTimes[i].stopId);
    ArrivalInItsGroup(stopTimes, i);
    var j :| 0 <= j < |arrivals| && arrivals[j] == stopTimes[i].arrivalTime;
  }

  /** With every arrival time well formed, every group has a gap. */
  lemma WellFormedTimesSucceed(stopTimes: seq<StopTimeRow>)
    requires forall i :: 0 <= i < |stopTimes| ==> ParseTime(stopTimes[i].arrivalTime).Some?
    ensures StopsWithFrequencies(GroupArrivals(stopTimes)).Success?
  {
    ArrivalsParse(stopTimes);
  }

  /** With every arrival time well formed, the times of every stop parse. */
  lemma ArrivalsParse(stopTimes: seq<StopTimeRow>)
    requires forall i :: 0 <= i < |stopTimes| ==> ParseTime(stopTimes[i].arrivalTime).Some?
    ensures forall id :: ParseAll(ArrivalsOf(stopTimes, id)).Some?
  {
    forall id, j | 0 <= j < |ArrivalsOf(stopTimes, id)|
      ensures ParseTime(ArrivalsOf(stopTimes, id)[j]).Some?
    {
      GroupedArrivalFromRow(stopTimes, id, ArrivalsOf(stopTimes, id)[j]);
    }
  }

  /** A stop the payload lists: complete, seen in `stop_times.txt`, with the
      average gap of its own arrival times over the window, and with the name and
      coordinates of the last `stops.txt` row for its id. */
  ghost predicate Reported(stopTimes: seq<StopTimeRow>, stopRows: seq<StopRow>, s: Stop) {
    && IsValid(s)
    && s.id in RowIds(stopTimes)
    && StopFrequency(Group(s.id, ArrivalsOf(stopTimes, s.id))) == Some(s.frequency)
    && LastRowFor(stopRows, s.id) == Some(StopRow(s.id, s.name.value, s.lat.value, s.lon.value))
  }

  /** Attaching names and coordinates keeps each stop's id and gap. */
  lemma AttachAllKeepsIdAndGap(stops: seq<Stop>, rows: seq<StopRow>, k: nat)
    requires k < |stops|
    ensures AttachAll(stops, rows)[k].id == stops[k].id
    ensures AttachAll(stops, rows)[k].frequency == stops[k].frequency
  {
  }

  /** Every stop of `valid_stops` is a reported stop. */
  lemma ValidStopsReported(stopTimes: seq<StopTimeRow>, stopRows: seq<StopRow>, stops: seq<Stop>)
    requires StopsWithFrequencies(GroupArrivals(stopTimes)) == Success(stops)
    ensures forall s :: s in ValidStops(AttachAll(stops, stopRows)) ==> Reported(stopTimes, stopRows, s)
  {
    var gs := GroupArrivals(stopTimes);
    var attached := AttachAll(stops, stopRows);
    forall s | s in ValidStops(attached) ensures Reported(stopTimes, stopRows, s) {
      var k :| 0 <= k < |attached| && attached[k] == s;
      AttachAllKeepsIdAndGap(stops, stopRows, k);
      assert Ids(gs)[k] == gs[k].id;
      assert gs[k] == Group(gs[k].id, ArrivalsOf(stopTimes, gs[k].id));
      assert stops[k].name.None?;
    }
  }

  /** Conversely, every reported stop is one of `valid_stops`. */
  lemma ReportedStopsValid(stopTimes: seq<StopTimeRow>, stopRows: seq<StopRow>, stops: seq<Stop>)
    requires StopsWithFrequencies(GroupArrivals(stopTimes)) == Success(stops)
    ensures forall s :: Reported(stopTimes, stopRows, s) ==> s in ValidStops(AttachAll(stops, stopRows))
  {
    var gs := GroupArrivals(stopTimes);
    var attached := AttachAll(stops, stopRows);
    forall s | Reported(stopTimes, stopRows, s) ensures s in attached {
      var k :| 0 <= k < |gs| && Ids(gs)[k] == s.id;
      assert gs[k] == Group(s.id, ArrivalsOf(stopTimes, s.id));
      assert attached[k] == s;
    }
  }

  /** Every payload entry reads back as a reported stop, the entries are ordered
      by gap, and the file is `docs/data/<city>/frequency_16_18.json`. */
  lemma AnalyzePayload(city: string, stopTimes: seq<StopTimeRow>, stopRows: seq<StopRow>)
    requires Analyze(city, stopTimes, stopRows).Success?
    ensures var out := Analyze(city, stopTimes, stopRows).value;
      && out.path == "docs/data/" + city + "/frequency_16_18.json"
      && out.payload.startSec == 57600 && out.payload.endSec == 64800
      && (forall i :: 0 <= i < |out.payload.stops| ==>
            FromDict(out.payload.stops[i]).Some? && Reported(stopTimes, stopRows, FromDict(out.payload.stops[i]).value))
      && (forall s :: Reported(stopTimes, stopRows, s) ==>
            exists i :: 0 <= i < |out.payload.stops| && FromDict(out.payload.stops[i]) == Some(s))
      && (forall i, j :: 0 <= i < j < |out.payload.stops| ==>
            FromDict(out.payload.stops[i]).value.frequency <= FromDict(out.payload.stops[j]).value.frequency)
  {
    var stops := StopsWithFrequencies(GroupArrivals(stopTimes)).value;
    var valid := ValidStops(AttachAll(stops, stopRows));
    var payload := BuildPayload(city, valid);
    assert Analyze(city, stopTimes, stopRows) == Success(Output(payload, OutputPath(city)));
    ValidStopsReported(stopTimes, stopRows, stops);
    ReportedStopsValid(stopTimes, stopRows, stops);
    PayloadEntriesReported(stopTimes, stopRows, city, valid);
    PayloadListsReported(stopTimes, stopRows, city, valid);
    PayloadOrdered(city, valid);
    OutputPathIs(city);
  }

  /** Stops in gap order give payload entries whose `avg_gap_sec` read back in order. */
  lemma PayloadOrdered(city: string, valid: seq<Stop>)
    requires forall i, j :: 0 <= i < j < |valid| ==> valid[i].frequency <= valid[j].frequency
    ensures var stops := BuildPayload(city, valid).stops;
      forall i, j :: 0 <= i < j < |stops| ==>
        FromDict(stops[i]).Some? && FromDict(stops[j]).Some? &&
        FromDict(stops[i]).value.frequency <= FromDict(stops[j]).value.frequency
  {
  }

  /** The payload built from reported stops reads back entry by entry as reported stops. */
  lemma PayloadEntriesReported(stopTimes: seq<StopTimeRow>, stopRows: seq<StopRow>, city: string, valid: seq<Stop>)
    requires forall s :: s in valid ==> Reported(stopTimes, stopRows, s)
    ensures forall i :: 0 <= i < |BuildPayload(city, valid).stops| ==>
              && FromDict(BuildPayload(city, valid).stops[i]).Some?
              && Reported(stopTimes, stopRows, FromDict(BuildPayload(city, valid).stops[i]).value)
  {
    var stops := BuildPayload(city, valid).stops;
    forall i | 0 <= i < |stops|
      ensures FromDict(stops[i]).Some? && Reported(stopTimes, stopRows, FromDict(stops[i]).value)
    {
      assert valid[i] in valid;
      assert FromDict(stops[i]) == Some(valid[i]);
    }
  }

  /** A payload built from a list holding every reported stop has an entry for each. */
  lemma PayloadListsReported(stopTimes: seq<StopTimeRow>, stopRows: seq<StopRow>, city: string, valid: seq<Stop>)
    requires forall s :: Reported(stopTimes, stopRows, s) ==> s in valid
    ensures forall s :: Reported(stopTimes, stopRows, s) ==>
              exists i :: 0 <= i < |BuildPayload(city, valid).stops| && FromDict(BuildPayload(city, valid).stops[i]) == Some(s)
  {
    var stops := BuildPayload(city, valid).stops;
    forall s | Reported(stopTimes, stopRows, s)
      ensures exists i :: 0 <= i < |stops| && FromDict(stops[i]) == Some(s)
    {
      var i :| 0 <= i < |valid| && valid[i] == s;
      assert FromDict(stops[i]) == Some(s);
    }
  }
}

=== FILE: stop_utils.dfy ===
/** The `stop` record of `scripts/helpers/stop_utils.py` and its JSON form. */
module StopUtils {
  import opened Wrappers

  /** A transit stop: its GTFS id, the name and coordinates read from `stops.txt`
      (unset until a row for the id is seen) and its average gap in seconds. */
  datatype Stop = Stop(
    id: string,
    name: Option<string>,
    lat: Option<real>,
    lon: Option<real>,
    frequency: int)

  /** The JSON values `to_dict` produces. */
  datatype JsonValue = JString(str: string) | JNumber(num: real) | JInt(integer: int) | JNull

  type Dict = map<string, JsonValue>

  /** A stop as it is created for an id: no name or coordinates, gap zero. */
  function NewStop(id: string): (s: Stop)
    ensures s.id == id && s.frequency == 0
    ensures s.name.None? && s.lat.None? && s.lon.None?
  {
    Stop(id, None, None, None, 0)
  }

  function OptionalString(x: Option<string>): JsonValue {
    match x
    case Some(v) => JString(v)
    case None => JNull
  }

  function OptionalNumber(x: Option<real>): JsonValue {
    match x
    case Some(v) => JNumber(v)
    case None => JNull
  }

  /** `to_dict`: the payload entry of a stop; the gap is written as `avg_gap_sec`. */
  function ToDict(s: Stop): (d: Dict)
    ensures d.Keys == {"stop_id", "name", "lat", "lon", "avg_gap_sec"}
    ensures d["stop_id"] == JString(s.id)
    ensures d["avg_gap_sec"] == JInt(s.frequency)
  {
    map[
      "stop_id" := JString(s.id),
      "name" := OptionalString(s.name),
      "lat" := OptionalNumber(s.lat),
      "lon" := OptionalNumber(s.lon),
      "avg_gap_sec" := JInt(s.frequency)]
  }

  function ReadString(v: JsonValue): Option<Option<string>> {
    match v
    case JString(x) => Some(Some(x))
    case JNull => Some(None)
    case _ => None
  }

  function ReadNumber(v: JsonValue): Option<Option<real>> {
    match v
    case JNumber(x) => Some(Some(x))
    case JNull => Some(None)
    case _ => None
  }

  /** Reads a payload entry back into a stop; `None` when a key is missing or
      holds a value of the wrong kind. */
  function FromDict(d: Dict): Option<Stop> {
    if "stop_id" !in d || "name" !in d || "lat" !in d || "lon" !in d || "avg_gap_sec" !in d then None
    else
      match (d["stop_id"], ReadString(d["name"]), ReadNumber(d["lat"]),
             ReadNumber(d["lon"]), d["avg_gap_sec"])
      case (JString(id), Some(name), Some(lat), Some(lon), JInt(f)) =>
        Some(Stop(id, name, lat, lon, f))
      case _ => None
  }

  /** `to_dict` passes every field through unchanged: the entry reads back as the stop. */
  lemma ToDictRoundTrip(s: Stop)
    ensures FromDict(ToDict(s)) == Some(s)
  {
  }
}

=== FILE: strings.dfy ===
/** String helpers with the semantics of the Python and JavaScript built-ins the
    source calls: `split` on a one-character separator, `replaceAll`, `replace`
    of the first occurrence, `startswith`, and decimal digits. */
module Strings {

  /** `s.split(sep)` in Python and JavaScript for a one-character separator:
      the pieces between separators, always at least one (possibly empty). */
  function Split(s: string, sep: char): (parts: seq<string>)
    ensures |parts| >= 1
    ensures forall i :: 0 <= i < |parts| ==> sep !in parts[i]
    decreases |s|
  {
    if s == [] then [[]]
    else
      var rest := Split(s[1..], sep);
      if s[0] == sep then [[]] + rest
      else [[s[0]] + rest[0]] + rest[1..]
  }

  /** `sep.join(parts)`: the pieces with one separator between neighbours. */
  function Join(parts: seq<string>, sep: char): string
    decreases |parts|
  {
    if parts == [] then []
    else if |parts| == 1 then parts[0]
    else parts[0] + [sep] + Join(parts[1..], sep)
  }

  /** Splitting loses nothing: joining the pieces gives back the string. */
  lemma {:induction false} JoinSplit(s: string, sep: char)
    ensures Join(Split(s, sep), sep) == s
    decreases |s|
  {
    if s != [] {
      JoinSplit(s[1..], sep);
      var rest := Split(s[1..], sep);
      if s[0] == sep {
        assert Split(s, sep) == [[]] + rest;
        assert ([[]] + rest)[1..] == rest;
      } else {
        var parts := Split(s, sep);
        assert parts == [[s[0]] + rest[0]] + rest[1..];
        if |rest| == 1 {
          assert parts == [[s[0]] + rest[0]];
        } else {
          assert parts[1..] == rest[1..];
          assert Join(rest, sep) == rest[0] + [sep] + Join(rest[1..], sep);
        }
      }
    }
  }

  /** A string without the separator is one piece. */
  lemma {:induction false} SplitWithoutSeparator(a: string, sep: char)
    requires sep !in a
    ensures Split(a, sep) == [a]
    decreases |a|
  {
    if a != [] {
      SplitWithoutSeparator(a[1..], sep);
      assert [a[0]] + a[1..] == a;
    }
  }

  /** The first piece ends at the first separator. */
  lemma {:induction false} SplitAtFirst(a: string, b: string, sep: char)
    requires sep !in a
    ensures Split(a + [sep] + b, sep) == [a] + Split(b, sep)
    decreases |a|
  {
    if a == [] {
      assert a + [sep] + b == [sep] + b;
      assert ([sep] + b)[1..] == b;
    } else {
      SplitAtFirst(a[1..], b, sep);
      assert (a + [sep] + b)[1..] == a[1..] + [sep] + b;
      assert [a[0]] + a[1..] == a;
    }
  }

  /** `s.replaceAll(c, r)` for a one-character pattern `c`. */
  function ReplaceAll(s: string, c: char, r: string): string
    decreases |s|
  {
    if s == [] then []
    else (if s[0] == c then r else [s[0]]) + ReplaceAll(s[1..], c, r)
  }

  /** Replacing distributes over concatenation. */
  lemma {:induction false} ReplaceAllAppend(a: string, b: string, c: char, r: string)
    ensures ReplaceAll(a + b, c, r) == ReplaceAll(a, c, r) + ReplaceAll(b, c, r)
    decreases |a|
  {
    if a != [] {
      assert (a + b)[1..] == a[1..] + b;
      ReplaceAllAppend(a[1..], b, c, r);
    } else {
      assert a + b == b;
    }
  }

  /** A string without the pattern is left as it is. */
  lemma {:induction false} ReplaceAllAbsent(s: string, c: char, r: string)
    requires c !in s
    ensures ReplaceAll(s, c, r) == s
    decreases |s|
  {
    if s != [] {
      ReplaceAllAbsent(s[1..], c, r);
      assert [s[0]] + s[1..] == s;
    }
  }

  /** JavaScript's `s.replace(c, r)` with a string pattern: only the first
      occurrence of `c` is replaced. */
  function ReplaceFirst(s: string, c: char, r: string): string
    decreases |s|
  {
    if s == [] then []
    else if s[0] == c then r + s[1..]
    else [s[0]] + ReplaceFirst(s[1..], c, r)
  }

  /** Only the first occurrence is replaced: everything after it is kept. */
  lemma {:induction false} ReplaceFirstAt(a: string, b: string, c: char, r: string)
    requires c !in a
    ensures ReplaceFirst(a + [c] + b, c, r) == a + r + b
    decreases |a|
  {
    if a == [] {
      assert a + [c] + b == [c] + b;
      assert ([c] + b)[1..] == b;
    } else {
      ReplaceFirstAt(a[1..], b, c, r);
      assert (a + [c] + b)[1..] == a[1..] + [c] + b;
      assert [a[0]] + a[1..] == a;
    }
  }

  /** Without an occurrence, `replace` changes nothing. */
  lemma {:induction false} ReplaceFirstAbsent(s: string, c: char, r: string)
    requires c !in s
    ensures ReplaceFirst(s, c, r) == s
    decreases |s|
  {
    if s != [] {
      ReplaceFirstAbsent(s[1..], c, r);
      assert [s[0]] + s[1..] == s;
    }
  }

  /** `s.startswith(p)` / `s.startsWith(p)`. */
  predicate StartsWith(s: string, p: string) {
    |p| <= |s| && s[..|p|] == p
  }

  predicate IsDigit(c: char) {
    '0' <= c <= '9'
  }

  predicate AllDigits(s: string) {
    forall i :: 0 <= i < |s| ==> IsDigit(s[i])
  }

  function DigitValue(c: char): nat
    requires IsDigit(c)
  {
    c as int - '0' as int
  }

  function DigitChar(d: nat): (c: char)
    requires d < 10
    ensures IsDigit(c) && DigitValue(c) == d
  {
    ('0' as int + d) as char
  }

  /** The number a string of decimal digits denotes, leading zeros allowed. */
  function DigitsValue(s: string): nat
    requires AllDigits(s)
    decreases |s|
  {
    if s == [] then 0
    else DigitsValue(s[..|s| - 1]) * 10 + DigitValue(s[|s| - 1])
  }

  /** Python's `str(n)` for a natural number: decimal digits, no leading zeros. */
  function NatToString(n: nat): (s: string)
    ensures |s| >= 1 && AllDigits(s)
    ensures |s| > 1 ==> s[0] != '0'
    decreases n
  {
    if n < 10 then [DigitChar(n)] else NatToString(n / 10) + [DigitChar(n % 10)]
  }

  /** Reading back the decimal form of a number gives the number. */
  lemma {:induction false} DigitsValueOfNatToString(n: nat)
    ensures DigitsValue(NatToString(n)) == n
    decreases n
  {
    var s := NatToString(n);
    if n >= 10 {
      DigitsValueOfNatToString(n / 10);
      assert s[..|s| - 1] == NatToString(n / 10);
    } else {
      assert s[..|s| - 1] == [];
    }
  }

  /** A leading zero does not change the value. */
  lemma {:induction false} DigitsValueLeadingZero(s: string)
    requires AllDigits(s)
    ensures AllDigits("0" + s) && DigitsValue("0" + s) == DigitsValue(s)
    decreases |s|
  {
    var z := "0" + s;
    assert AllDigits(z) by {
      forall i | 0 <= i < |z| ensures IsDigit(z[i]) {
        if i > 0 { assert z[i] == s[i - 1]; }
      }
    }
    if s != [] {
      DigitsValueLeadingZero(s[..|s| - 1]);
      assert z[..|z| - 1] == "0" + s[..|s| - 1];
    }
  }
}

=== FILE: time_utils.dfy ===
/** The gap statistics of `scripts/helpers/time_utils.py`: parsing `H:M:S`
    arrival times, keeping those inside a window, ordering them and averaging
    the gap between consecutive arrivals. */
module TimeUtils {
  import opened Wrappers
  import opened Strings
  import opened Sorting

  /** A parsed `H:M:S` time. Hours past 23 (GTFS trips running past midnight)
      and minutes or seconds past 59 are whatever the text says. */
  datatype Time = Time(h: int, m: int, s: int)

  /** Minutes and seconds are clock digits. */
  predicate WellFormed(t: Time) {
    0 <= t.m < 60 && 0 <= t.s < 60
  }

  function ToSeconds(t: Time): int {
    t.h * 3600 + t.m * 60 + t.s
  }

  /** Python's `int(x)` on a field: an optional sign followed by ASCII digits. */
  function ParseInt(x: string): (r: Option<int>)
    ensures r.Some? ==> |x| >= 1
  {
    if |x| >= 1 && (x[0] == '-' || x[0] == '+') then
      if |x| >= 2 && AllDigits(x[1..]) then
        var v: int := DigitsValue(x[1..]);
        Some(if x[0] == '-' then -v else v)
      else None
    else if |x| >= 1 && AllDigits(x) then Some(DigitsValue(x))
    else None
  }

  /** `h, m, s = map(int, t.split(":"))`: exactly three integer fields, or the
      Python code raises (modelled as `None`). */
  function ParseTime(t: string): Option<Time> {
    var parts := Split(t, ':');
    if |parts| != 3 then None
    else
      match (ParseInt(parts[0]), ParseInt(parts[1]), ParseInt(parts[2]))
      case (Some(h), Some(m), Some(s)) => Some(Time(h, m, s))
      case _ => None
  }

  /** `to_seconds(t)`. */
  function TimestampSeconds(t: string): Option<int> {
    match ParseTime(t)
    case Some(tm) => Some(ToSeconds(tm))
    case None => None
  }

  /** Parses every timestamp of a list, failing on the first malformed one. */
  function ParseAll(ts: seq<string>): (r: Option<seq<Time>>)
    ensures r.Some? ==> |r.value| == |ts|
    ensures r.Some? ==> forall i :: 0 <= i < |ts| ==> ParseTime(ts[i]) == Some(r.value[i])
    ensures r.None? ==> exists i :: 0 <= i < |ts| && ParseTime(ts[i]).None?
    decreases |ts|
  {
    if ts == [] then Some([])
    else
      match (ParseTime(ts[0]), ParseAll(ts[1..]))
      case (Some(t), Some(rest)) => Some([t] + rest)
      case (None, _) => None
      case (_, None) =>
        assert forall i :: 0 <= i < |ts[1..]| ==> ts[1..][i] == ts[i + 1];
        None
  }

  /** A field written with at least two digits, as in a GTFS `HH:MM:SS` time. */
  function TwoDigits(n: nat): (s: string)
    ensures |s| >= 2 && AllDigits(s)
  {
    if n < 10 then "0" + NatToString(n) else NatToString(n)
  }

  /** A GTFS arrival time text for a time with non-negative fields. */
  function FormatTime(t: Time): string
    requires t.h >= 0 && t.m >= 0 && t.s >= 0
  {
    TwoDigits(t.h) + ":" + TwoDigits(t.m) + ":" + TwoDigits(t.s)
  }

  lemma TwoDigitsValue(n: nat)
    ensures DigitsValue(TwoDigits(n)) == n
  {
    DigitsValueOfNatToString(n);
    if n < 10 {
      DigitsValueLeadingZero(NatToString(n));
    }
  }

  lemma ParseIntTwoDigits(n: nat)
    ensures ParseInt(TwoDigits(n)) == Some(n)
  {
    TwoDigitsValue(n);
  }

  /** Three fields without a colon, joined by colons, split back into themselves. */
  lemma SplitThree(a: string, b: string, c: string)
    requires ':' !in a && ':' !in b && ':' !in c
    ensures Split(a + ":" + b + ":" + c, ':') == [a, b, c]
  {
    assert a + ":" + b + ":" + c == a + [':'] + (b + [':'] + c);
    SplitAtFirst(a, b + [':'] + c, ':');
    SplitAtFirst(b, c, ':');
    SplitWithoutSeparator(c, ':');
  }

  /** Parsing a formatted time gives the time back, for any number of hours. */
  lemma FormatThenParse(t: Time)
    requires t.h >= 0 && t.m >= 0 && t.s >= 0
    ensures ParseTime(FormatTime(t)) == Some(t)
    ensures TimestampSeconds(FormatTime(t)) == Some(t.h * 3600 + t.m * 60 + t.s)
  {
    var a, b, c := TwoDigits(t.h), TwoDigits(t.m), TwoDigits(t.s);
    assert ':' !in a && ':' !in b && ':' !in c by {
      assert !IsDigit(':');
    }
    SplitThree(a, b, c);
    ParseIntTwoDigits(t.h);
    ParseIntTwoDigits(t.m);
    ParseIntTwoDigits(t.s);
  }

  predicate InWindow(t: Time, start: int, end: int) {
    start <= ToSeconds(t) <= end
  }

  /** `filter_time_window`: the times whose seconds lie in `[start, end]`. */
  function FilterTimeWindow(ts: seq<Time>, start: int, end: int): (r: seq<Time>)
    ensures forall i :: 0 <= i < |r| ==> InWindow(r[i], start, end)
    ensures forall t :: t in r <==> t in ts && InWindow(t, start, end)
    ensures |r| <= |ts|
    decreases |ts|
  {
    if ts == [] then []
    else (if InWindow(ts[0], start, end) then [ts[0]] else [])
         + FilterTimeWindow(ts[1..], start, end)
  }

  /** Filtering works piece by piece, so it keeps the original order. */
  lemma {:induction false} FilterTimeWindowAppend(a: seq<Time>, b: seq<Time>, start: int, end: int)
    ensures FilterTimeWindow(a + b, start, end)
         == FilterTimeWindow(a, start, end) + FilterTimeWindow(b, start, end)
    decreases |a|
  {
    if a == [] {
      assert a + b == b;
    } else {
      assert (a + b)[1..] == a[1..] + b;
      FilterTimeWindowAppend(a[1..], b, start, end);
    }
  }

  /** Times already inside the window are all kept, so filtering twice is filtering once. */
  lemma {:induction false} FilterTimeWindowKeepsInside(ts: seq<Time>, start: int, end: int)
    requires forall i :: 0 <= i < |ts| ==> InWindow(ts[i], start, end)
    ensures FilterTimeWindow(ts, start, end) == ts
    decreases |ts|
  {
    if ts != [] {
      FilterTimeWindowKeepsInside(ts[1..], start, end);
      assert [ts[0]] + ts[1..] == ts;
    }
  }

  /** The sort key `tuple(map(int, t.split(":")))`, compared lexicographically. */
  predicate TimeLe(a: Time, b: Time) {
    a.h < b.h || (a.h == b.h && (a.m < b.m || (a.m == b.m && a.s <= b.s)))
  }

  lemma TimeLeTotalPreorder()
    ensures TotalPreorder(TimeLe)
  {
  }

  /** `sort_timestamps`: a permutation ordered by `(h, m, s)`. */
  function SortTimestamps(ts: seq<Time>): (r: seq<Time>)
    ensures multiset(r) == multiset(ts)
    ensures forall i, j :: 0 <= i < j < |r| ==> TimeLe(r[i], r[j])
  {
    TimeLeTotalPreorder();
    SortBy(ts, TimeLe)
  }

  /** Python's `a // d` for a positive divisor. Dafny's `/` is Euclidean, which
      agrees with flooring when the divisor is positive. */
  function FloorDiv(a: int, d: int): int
    requires d > 0
  {
    a / d
  }

  function Seconds(ts: seq<Time>): (r: seq<int>)
    ensures |r| == |ts|
    ensures forall i :: 0 <= i < |ts| ==> r[i] == ToSeconds(ts[i])
  {
    seq(|ts|, i requires 0 <= i < |ts| => ToSeconds(ts[i]))
  }

  /** `[seconds[i + 1] - seconds[i] for i in range(len(seconds) - 1)]`. */
  function Diffs(xs: seq<int>): (d: seq<int>)
    requires |xs| >= 1
    ensures |d| == |xs| - 1
  {
    seq(|xs| - 1, i requires 0 <= i < |xs| - 1 => xs[i + 1] - xs[i])
  }

  function Sum(xs: seq<int>): int
    decreases |xs|
  {
    if xs == [] then 0 else xs[0] + Sum(xs[1..])
  }

  /** The consecutive differences telescope to last minus first. */
  lemma {:induction false} SumDiffsTelescopes(xs: seq<int>)
    requires |xs| >= 1
    ensures Sum(Diffs(xs)) == xs[|xs| - 1] - xs[0]
    decreases |xs|
  {
    if |xs| > 1 {
      SumDiffsTelescopes(xs[1..]);
      assert Diffs(xs)[1..] == Diffs(xs[1..]);
    }
  }

  /** `average_time_between`: the floor of the mean gap between neighbours.
      Python returns the float `0.0` for fewer than two times; the only caller
      never reaches that branch. */
  function AverageTimeBetween(ts: seq<Time>): (r: int)
    ensures |ts| < 2 ==> r == 0
    ensures |ts| >= 2 ==> r == FloorDiv(ToSeconds(ts[|ts| - 1]) - ToSeconds(ts[0]), |ts| - 1)
  {
    if |ts| < 2 then 0
    else
      var diffs := Diffs(Seconds(ts));
      SumDiffsTelescopes(Seconds(ts));
      FloorDiv(Sum(diffs), |diffs|)
  }

  /** For clock-digit minutes and seconds, `(h, m, s)` order is seconds order. */
  lemma TimeLeSeconds(a: Time, b: Time)
    requires WellFormed(a) && WellFormed(b) && TimeLe(a, b)
    ensures ToSeconds(a) <= ToSeconds(b)
  {
    if a.h < b.h {
      assert a.h * 3600 + 3600 <= b.h * 3600;
    }
  }

  lemma FloorDivBetween(a: int, d: int)
    requires 0 <= a && d >= 1
    ensures 0 <= FloorDiv(a, d) <= a
  {
  }

  /** Sorting well-formed times of a window puts the earliest first and the latest
      last, so the mean gap lies between zero and the window's length. */
  lemma SortedWindowGapBounds(filtered: seq<Time>, start: int, end: int)
    requires |filtered| >= 2
    requires forall i :: 0 <= i < |filtered| ==> WellFormed(filtered[i])
    requires forall i :: 0 <= i < |filtered| ==> InWindow(filtered[i], start, end)
    ensures 0 <= AverageTimeBetween(SortTimestamps(filtered)) <= end - start
  {
    var sorted := SortTimestamps(filtered);
    var n := |sorted|;
    SortedKeepsWindow(filtered, start, end);
    var first, last := sorted[0], sorted[n - 1];
    TimeLeSeconds(first, last);
    var span := ToSeconds(last) - ToSeconds(first);
    assert 0 <= span <= end - start;
    FloorDivBetween(span, n - 1);
  }

  /** Sorting keeps every time well formed and inside the window. */
  lemma SortedKeepsWindow(filtered: seq<Time>, start: int, end: int)
    requires forall i :: 0 <= i < |filtered| ==> WellFormed(filtered[i]) && InWindow(filtered[i], start, end)
    ensures forall k :: 0 <= k < |SortTimestamps(filtered)| ==>
              WellFormed(SortTimestamps(filtered)[k]) && InWindow(SortTimestamps(filtered)[k], start, end)
  {
    var sorted := SortTimestamps(filtered);
    forall k | 0 <= k < |sorted| ensures WellFormed(sorted[k]) && InWindow(sorted[k], start, end) {
      assert sorted[k] in multiset(sorted);
      assert sorted[k] in multiset(filtered);
      var j :| 0 <= j < |filtered| && filtered[j] == sorted[k];
    }
  }

  /** `avg_gap_start_to_end`: the mean gap between the sorted times of the window
      `[start, end]`. */
  function AvgGapStartToEnd(ts: seq<Time>, start: int, end: int): (r: int)
    ensures |FilterTimeWindow(ts, start, end)| < 2 ==> r == 0
    ensures (forall i :: 0 <= i < |ts| ==> WellFormed(ts[i])) ==>
              0 <= r && (start <= end ==> r <= end - start)
  {
    var filtered := FilterTimeWindow(ts, start, end);
    if |filtered| < 2 then 0
    else
      assert (forall i :: 0 <= i < |ts| ==> WellFormed(ts[i])) ==>
               0 <= AverageTimeBetween(SortTimestamps(filtered)) <= end - start by {
        if forall i :: 0 <= i < |ts| ==> WellFormed(ts[i]) {
          assert forall i :: 0 <= i < |filtered| ==> filtered[i] in ts;
          SortedWindowGapBounds(filtered, start, end);
        }
      }
      AverageTimeBetween(SortTimestamps(filtered))
  }
}

=== FILE: url_coding.dfy ===
/** The two URL codings the router touches: `encodeURIComponent` when the hash is
    written, and the `application/x-www-form-urlencoded` parsing behind
    `URLSearchParams` when it is read. Only ASCII characters are escaped; see the
    README for characters outside ASCII. */
module UrlCoding {
  import opened Wrappers
  import opened Strings

  const HEX_DIGITS: string := "0123456789ABCDEF"

  function HexDigit(v: nat): (d: char)
    requires v < 16
    ensures '0' <= d <= '9' || 'A' <= d <= 'F'
  {
    HEX_DIGITS[v]
  }

  /** The value of a hexadecimal digit in either case. */
  function HexValue(c: char): (v: Option<nat>)
    ensures v.Some? ==> v.value < 16
  {
    if '0' <= c <= '9' then Some(c as int - '0' as int)
    else if 'A' <= c <= 'F' then Some(c as int - 'A' as int + 10)
    else if 'a' <= c <= 'f' then Some(c as int - 'a' as int + 10)
    else None
  }

  lemma HexValueOfDigit(v: nat)
    requires v < 16
    ensures HexValue(HexDigit(v)) == Some(v)
  {
  }

  /** The characters `encodeURIComponent` leaves alone. */
  predicate Unreserved(c: char) {
    || 'A' <= c <= 'Z' || 'a' <= c <= 'z' || '0' <= c <= '9'
    || c == '-' || c == '_' || c == '.' || c == '!' || c == '~'
    || c == '*' || c == '\'' || c == '(' || c == ')'
  }

  function EncodeChar(c: char): string {
    if Unreserved(c) || c as int >= 128 then [c]
    else ['%', HexDigit(c as int / 16), HexDigit(c as int % 16)]
  }

  /** `encodeURIComponent`. */
  function EncodeURIComponent(s: string): string
    decreases |s|
  {
    if s == [] then [] else EncodeChar(s[0]) + EncodeURIComponent(s[1..])
  }

  /** The decoding of one name or value of a query string: `+` becomes a space,
      then every `%` followed by two hexadecimal digits becomes that character. */
  function FormDecode(s: string): string
    decreases |s|
  {
    if s == [] then []
    else if s[0] == '+' then " " + FormDecode(s[1..])
    else if s[0] == '%' && |s| >= 3 && HexValue(s[1]).Some? && HexValue(s[2]).Some?
         && HexValue(s[1]).value * 16 + HexValue(s[2]).value < 128 then
      [(HexValue(s[1]).value * 16 + HexValue(s[2]).value) as char] + FormDecode(s[3..])
    else [s[0]] + FormDecode(s[1..])
  }

  lemma FormDecodeEncodeChar(c: char, rest: string)
    ensures FormDecode(EncodeChar(c) + rest) == [c] + FormDecode(rest)
  {
    var t := EncodeChar(c) + rest;
    if Unreserved(c) || c as int >= 128 {
      assert t[0] == c && t[1..] == rest;
    } else {
      var v := c as int;
      HexValueOfDigit(v / 16);
      HexValueOfDigit(v % 16);
      assert t[0] == '%' && t[1] == HexDigit(v / 16) && t[2] == HexDigit(v % 16);
      assert t[3..] == rest;
      assert (v / 16) * 16 + v % 16 == v;
    }
  }

  /** Decoding undoes `encodeURIComponent`. */
  lemma {:induction false} FormDecodeEncode(s: string)
    ensures FormDecode(EncodeURIComponent(s)) == s
    decreases |s|
  {
    if s != [] {
      FormDecodeEncodeChar(s[0], EncodeURIComponent(s[1..]));
      FormDecodeEncode(s[1..]);
      assert [s[0]] + s[1..] == s;
    }
  }

  /** The delimiters of a hash and its query never survive encoding. */
  predicate Delimiter(c: char) {
    c == '?' || c == '&' || c == '=' || c == '#' || c == '/'
  }

  lemma EncodeCharNoDelimiter(c: char)
    ensures forall i :: 0 <= i < |EncodeChar(c)| ==> !Delimiter(EncodeChar(c)[i])
  {
    if !(Unreserved(c) || c as int >= 128) {
      var e := EncodeChar(c);
      assert e == ['%', HexDigit(c as int / 16), HexDigit(c as int % 16)];
    }
  }

  lemma {:induction false} EncodeHasNoDelimiter(s: string)
    ensures forall i :: 0 <= i < |EncodeURIComponent(s)| ==> !Delimiter(EncodeURIComponent(s)[i])
    decreases |s|
  {
    if s != [] {
      EncodeHasNoDelimiter(s[1..]);
      var e, rest := EncodeChar(s[0]), EncodeURIComponent(s[1..]);
      EncodeCharNoDelimiter(s[0]);
      forall i | 0 <= i < |e + rest| ensures !Delimiter((e + rest)[i]) {
        if i >= |e| { assert (e + rest)[i] == rest[i - |e|]; }
      }
    }
  }

  /** One `name=value` pair of a query string. */
  datatype Param = Param(name: string, value: string)

  /** A non-empty piece split at its first `=`; a piece without `=` has an empty value. */
  function NameValue(piece: string): (p: Param)
    ensures '=' !in piece ==> p == Param(piece, "")
    decreases |piece|
  {
    if piece == [] then Param("", "")
    else if piece[0] == '=' then Param("", piece[1..])
    else
      var rest := NameValue(piece[1..]);
      Param([piece[0]] + rest.name, rest.value)
  }

  /** The name ends at the first `=`; later `=` belong to the value. */
  lemma {:induction false} NameValueAtFirst(a: string, b: string)
    requires '=' !in a
    ensures NameValue(a + "=" + b) == Param(a, b)
    decreases |a|
  {
    var piece := a + "=" + b;
    if a == [] {
      assert piece == "=" + b && piece[1..] == b;
    } else {
      assert piece[0] == a[0] && piece[1..] == a[1..] + "=" + b;
      NameValueAtFirst(a[1..], b);
      assert [a[0]] + a[1..] == a;
    }
  }

  /** `new URLSearchParams(query)`: pieces between `&`, empty ones skipped, both
      halves decoded. */
  function SearchParams(pieces: seq<string>): (ps: seq<Param>)
    ensures |ps| <= |pieces|
    decreases |pieces|
  {
    if pieces == [] then []
    else
      var p := NameValue(pieces[0]);
      (if pieces[0] == [] then [] else [Param(FormDecode(p.name), FormDecode(p.value))])
        + SearchParams(pieces[1..])
  }

  /** `params.get(name)`: the value of the first pair with that name. */
  function Get(ps: seq<Param>, name: string): (v: Option<string>)
    ensures v.None? <==> forall k :: 0 <= k < |ps| ==> ps[k].name != name
    ensures v.Some? ==> exists k :: 0 <= k < |ps| && ps[k] == Param(name, v.value)
                          && forall j :: 0 <= j < k ==> ps[j].name != name
    decreases |ps|
  {
    if ps == [] then None
    else if ps[0].name == name then Some(ps[0].value)
    else
      var v := Get(ps[1..], name);
      assert forall k :: 0 < k < |ps| ==> ps[k] == ps[1..][k - 1];
      if v.Some? then
        ghost var k :| 0 <= k < |ps[1..]| && ps[1..][k] == Param(name, v.value)
                        && forall j :: 0 <= j < k ==> ps[1..][j].name != name;
        assert ps[k + 1] == Param(name, v.value);
        v
      else v
  }

  /** The value of `name` in a query string. */
  function QueryGet(query: string, name: string): Option<string> {
    Get(SearchParams(Split(query, '&')), name)
  }

  /** A query of one encoded pair gives the value back. */
  lemma QueryGetSingle(name: string, value: string)
    requires forall i :: 0 <= i < |name| ==> !Delimiter(name[i]) && name[i] != '+' && name[i] != '%'
    ensures QueryGet(name + "=" + EncodeURIComponent(value), name) == Some(value)
  {
    var enc := EncodeURIComponent(value);
    var q := name + "=" + enc;
    EncodeHasNoDelimiter(value);
    assert '&' !in q by {
      forall i | 0 <= i < |q| ensures q[i] != '&' {
        if i > |name| { assert q[i] == enc[i - |name| - 1]; }
      }
    }
    SplitWithoutSeparator(q, '&');
    assert '=' !in name by {
      forall i | 0 <= i < |name| ensures name[i] != '=' {}
    }
    NameValueAtFirst(name, enc);
    FormDecodeEncode(value);
    FormDecodeIdentity(name);
    assert SearchParams([q]) == [Param(name, value)] by {
      assert [q][1..] == [];
    }
  }

  /** A string without `+` and `%` decodes to itself. */
  lemma {:induction false} FormDecodeIdentity(s: string)
    requires forall i :: 0 <= i < |s| ==> s[i] != '+' && s[i] != '%'
    ensures FormDecode(s) == s
    decreases |s|
  {
    if s != [] {
      FormDecodeIdentity(s[1..]);
      assert [s[0]] + s[1..] == s;
    }
  }
}

=== FILE: wrappers.dfy ===
/** Optional values and results with an error, shared by every module of the model. */
module Wrappers {

  /** A value that may be missing: Python's `None`, JavaScript's `null`. */
  datatype Option<+T> = None | Some(value: T) {

    /** The contained value, or `default` when there is none. */
    function GetOr(default: T): T {
      match this
      case Some(v) => v
      case None => default
    }
  }

  /** The outcome of an operation whose source raises an exception on bad input. */
  datatype Result<+T, +E> = Success(value: T) | Failure(error: E)
}
